=== FILE: README.md ===
# Offline-first user directory: the synchronisation engine

This project models the core of an Android user-directory app in Dafny. The
app keeps a local table of users, and each row carries two flags:

- `pendingSync`: the row has changes the server has not seen.
- `pendingDelete`: the row was deleted locally. Such a row is a tombstone.

A remote user service is reconciled with that table in two phases:

- **Upload.** Every dirty row is created (POST) or updated (PUT) on the server.
  A row whose id starts with `local_` was never created remotely, so it is
  re-keyed to the id the server assigns. Then every tombstone is deleted on
  the server, best effort, and removed locally.
- **Download.** The server's listing is split by whether each id is already a
  local key. The known records are applied as updates, then the new ones are
  inserted.

The view model mints the temporary `local_` ids. It also builds the random
test user, runs upload before download and turns results into messages.

Modules:

- `Users` is the record and its flags. `Text` holds the decimal rendering
  used in ids and messages.
- `Local` is the table (`map<string, User>`) and its write and query
  semantics. Its class `UserDao` changes the table in place.
- `Network` is the remote service. Its class `MockApiService` keeps a log of
  the requests sent. Its answers come from a `Server` oracle, a function of the
  requests sent so far and the call's arguments. So any deterministic server
  behaviour is covered, failures included.
- `Upload` and `Download` define the two phases as functions of the table, the
  request log and the order the queries listed the rows in. They also hold the
  lemmas about those functions.
- `Repository` is `DefaultUserRepository`. Its methods are proved to compute
  exactly what the `Upload` and `Download` functions define.
- `ViewModel` is `UserViewModel`, whose field `messages` records what was
  emitted.

Query results are "listings": each matching row exactly once, in an order
the database chooses (`Local.Lists`). `UploadPendingChanges` returns the two
listings it read as ghost results, so its postcondition can name them.

## Behaviour worth knowing

- **Download flags.** The download stores the server's records exactly as
  they come, sync flags included (`UserRepository.kt:137-151`).
  `Repository.DownloadKeepsRemoteFlags` states this. As a result, "a second
  sync changes nothing" holds only when the server lists clean records
  (`Repository.SecondSyncChangesNothing`).
- **Create flags.** After a remote create, the stored row is the server's
  record with only `pendingSync` cleared. Its `pendingDelete` is whatever the
  server returned.
- **The flag rule.** The local writes keep "`pendingDelete` implies
  `pendingSync`" (`Repository.LocalWritesKeepFlagsConsistent`). The two
  points above mean a synchronisation can break it
  (`Repository.CreatedTombstoneBreaksFlags`,
  `Repository.DownloadedTombstoneBreaksFlags`). It survives when the server
  creates no record marked deleted and lists only records that obey it. A
  row broken by a create is a tombstone, so the same upload's second loop
  removes it; after a successful upload every row is clean
  (`Upload.UploadLeavesTableClean`). The rule stays broken only when a later
  dirty row's call stops the upload, or when the download stores such a
  record.
- **Remote deletions.** The download never removes a local row
  (`Download.MergeKeys`), so a record deleted on the server stays in the
  local table.
- **Error messages.** An upload failure reaches the screen with both
  prefixes: "Error subiendo: Error subiendo datos: …". `ViewModel.UserViewModel.Sync`
  emits "Error subiendo: " before the message of `Repository.UploadOutcome`,
  which already starts with "Error subiendo datos: ".

## Model

| member | source | states |
|---|---|---|
| Users.IsLocalId | app/src/main/java/com/example/gestionusuarioshibrido/data/UserRepository.kt:85 | `id.startsWith("local_")`, the test both upload loops make (lines 85 and 106): the id begins with the six characters `local_` |
| Text.NatToStringValue | app/src/main/java/com/example/gestionusuarioshibrido/data/UserRepository.kt:118 | the decimal rendering of a count in a summary reads back as that count |
| Text.IntToStringInjective | app/src/main/java/com/example/gestionusuarioshibrido/viewmodel/UserViewModel.kt:47 | two clock readings with the same rendering are equal |
| Local.Find | app/src/main/java/com/example/gestionusuarioshibrido/data/local/UserDao.kt:28-29 | `WHERE id = :userId` on the primary key: the row stored under that key, or nothing when no row has it |
| Local.Upsert | app/src/main/java/com/example/gestionusuarioshibrido/data/local/UserDao.kt:32-33 | insert-or-replace: the key holds the record, the key set gains its id, every other key is unchanged, well-keyedness is kept |
| Local.Update | app/src/main/java/com/example/gestionusuarioshibrido/data/local/UserDao.kt:36-37 | update by key: the key set is unchanged, an existing key takes the record, every other key is unchanged (a missing key creates nothing) |
| Local.Remove | app/src/main/java/com/example/gestionusuarioshibrido/data/local/UserDao.kt:40-41 | physical delete: only that key leaves the table, every other key is unchanged |
| Local.UpsertAll | app/src/main/java/com/example/gestionusuarioshibrido/data/local/UserDao.kt:49-50 | bulk insert with REPLACE: the records are upserted one after another in list order, keeping keys well formed (characterised by `UpsertAllAt`) |
| Local.UpdateAll | app/src/main/java/com/example/gestionusuarioshibrido/data/local/UserDao.kt:53-54 | bulk update: the records are applied as updates one after another in list order, keeping keys well formed (characterised by `UpdateAllAt`) |
| Local.UpsertIdempotent | app/src/main/java/com/example/gestionusuarioshibrido/data/local/UserDao.kt:32-33 | inserting the same record twice gives the table of inserting it once |
| Local.UpsertAllAt | app/src/main/java/com/example/gestionusuarioshibrido/data/local/UserDao.kt:49-50 | after bulk insert each key holds the last record with that id, else its old row; the keys are the old ones plus the records' ids |
| Local.UpdateAllAt | app/src/main/java/com/example/gestionusuarioshibrido/data/local/UserDao.kt:53-54 | bulk update keeps the key set; an existing key holds the last record with its id, else its old row; a missing key stays missing |
| Local.ActiveView | app/src/main/java/com/example/gestionusuarioshibrido/data/local/UserDao.kt:24-25 | `WHERE pendingDelete = 0`: the rows that are not tombstones, as stored |
| Local.ToSync | app/src/main/java/com/example/gestionusuarioshibrido/data/local/UserDao.kt:57-58 | `WHERE pendingSync = 1 AND pendingDelete = 0`: the dirty rows that are not tombstones, as stored |
| Local.ToDelete | app/src/main/java/com/example/gestionusuarioshibrido/data/local/UserDao.kt:61-62 | `WHERE pendingDelete = 1`: the tombstones, as stored |
| Local.ListingElements | app/src/main/java/com/example/gestionusuarioshibrido/data/local/UserDao.kt:57-62 | a query result holds only selected rows, each as stored, no id twice, and every selected row |
| Local.ListingSize | app/src/main/java/com/example/gestionusuarioshibrido/data/local/UserDao.kt:57-62 | a query result has exactly as many records as the rows it selects |
| Local.ListingIds | app/src/main/java/com/example/gestionusuarioshibrido/data/local/UserDao.kt:57-62 | a query result names exactly the keys of the rows it selects |
| Local.QueriesPartitionTable | app/src/main/java/com/example/gestionusuarioshibrido/data/local/UserDao.kt:24-62 | the active view and the tombstones split the table with no overlap; the active view never holds a tombstone; the rows to upload are active and never tombstones |
| Local.ListRows | app/src/main/java/com/example/gestionusuarioshibrido/data/local/UserDao.kt:24-62 | a `SELECT` returns each selected row exactly once and nothing else |
| Local.UserDao.GetAllActiveUsersStream | app/src/main/java/com/example/gestionusuarioshibrido/data/local/UserDao.kt:24-25 | returns exactly the rows with `pendingDelete` false |
| Local.UserDao.GetUserById | app/src/main/java/com/example/gestionusuarioshibrido/data/local/UserDao.kt:28-29 | returns the row with that key, or nothing exactly when no row has it |
| Local.UserDao.InsertUser | app/src/main/java/com/example/gestionusuarioshibrido/data/local/UserDao.kt:32-33 | the table becomes `Upsert` of the old table |
| Local.UserDao.UpdateUser | app/src/main/java/com/example/gestionusuarioshibrido/data/local/UserDao.kt:36-37 | the table becomes `Update` of the old table |
| Local.UserDao.DeleteUser | app/src/main/java/com/example/gestionusuarioshibrido/data/local/UserDao.kt:40-41 | the table becomes `Remove` of the old table at the record's id |
| Local.UserDao.DeleteAllUsers | app/src/main/java/com/example/gestionusuarioshibrido/data/local/UserDao.kt:43-44 | the table is empty |
| Local.UserDao.InsertUsers | app/src/main/java/com/example/gestionusuarioshibrido/data/local/UserDao.kt:49-50 | the records are upserted one after another, in list order |
| Local.UserDao.UpdateUsers | app/src/main/java/com/example/gestionusuarioshibrido/data/local/UserDao.kt:53-54 | the records are applied as updates one after another, in list order |
| Local.UserDao.GetUsersToSync | app/src/main/java/com/example/gestionusuarioshibrido/data/local/UserDao.kt:57-58 | returns exactly the rows with `pendingSync` set and `pendingDelete` clear |
| Local.UserDao.GetUsersToDelete | app/src/main/java/com/example/gestionusuarioshibrido/data/local/UserDao.kt:61-62 | returns exactly the rows with `pendingDelete` set |
| Local.UserDao.GetAllIds | app/src/main/java/com/example/gestionusuarioshibrido/data/local/UserDao.kt:65-66 | returns the key of every row, tombstones included |
| Network.MockApiService.GetAllUsers | app/src/main/java/com/example/gestionusuarioshibrido/network/MockApiService.kt:15-16 | logs one GET and answers what the server answers given the earlier requests |
| Network.MockApiService.CreateUser | app/src/main/java/com/example/gestionusuarioshibrido/network/MockApiService.kt:19-20 | logs one POST of the record and answers what the server answers |
| Network.MockApiService.UpdateUser | app/src/main/java/com/example/gestionusuarioshibrido/network/MockApiService.kt:23-24 | logs one PUT under the id and answers what the server answers |
| Network.MockApiService.DeleteUser | app/src/main/java/com/example/gestionusuarioshibrido/network/MockApiService.kt:27-28 | logs one DELETE of the id and answers what the server answers |
| Upload.SyncOne | app/src/main/java/com/example/gestionusuarioshibrido/data/UserRepository.kt:85-96 | one dirty row: a POST for a `local_` id, else a PUT under its id, appended to the log; fails exactly when that call fails, with the call's message and the table as it was; on success the row counts as processed |
| Upload.SyncOneEffect | app/src/main/java/com/example/gestionusuarioshibrido/data/UserRepository.kt:85-96 | on success a `local_` row is dropped and the server's record, with `pendingSync` cleared, takes its place under the server's id; any other row keeps what was sent with only `pendingSync` cleared; no other key moves |
| Upload.SyncPass | app/src/main/java/com/example/gestionusuarioshibrido/data/UserRepository.kt:84-98 | the first loop processes every listed row on success and stops before the end on the first failure |
| Upload.PurgePass | app/src/main/java/com/example/gestionusuarioshibrido/data/UserRepository.kt:101-116 | the second loop over the listed tombstones: a DELETE for each non-local id, answer ignored, and a physical local delete in every case; keys stay well formed (pinned by `PurgePassRows` and `PurgePassRequests`) |
| Upload.DeleteRequestsExact | app/src/main/java/com/example/gestionusuarioshibrido/data/UserRepository.kt:104-112 | every remote request of the second loop is a DELETE of a listed tombstone's non-local id, and every listed non-local tombstone gets one |
| Upload.DeleteRequestsOnce | app/src/main/java/com/example/gestionusuarioshibrido/data/UserRepository.kt:104-112 | over a listing (no id twice), each non-local tombstone gets exactly one DELETE and a `local_` one none |
| Upload.SyncPassRequests | app/src/main/java/com/example/gestionusuarioshibrido/data/UserRepository.kt:84-98 | the first loop sends, in listing order, the POST or PUT of each processed row plus the request that failed |
| Upload.SyncPassNoRollback | app/src/main/java/com/example/gestionusuarioshibrido/data/UserRepository.kt:84-98 | a failure leaves the table exactly as a successful pass over the rows before the failing one would: nothing is rolled back |
| Upload.SyncPassCleans | app/src/main/java/com/example/gestionusuarioshibrido/data/UserRepository.kt:81-98 | a successful pass over a listing that names every dirty row leaves no dirty row |
| Upload.LocalIdStaysGone | app/src/main/java/com/example/gestionusuarioshibrido/data/UserRepository.kt:85-90 | a missing `local_` key is never re-created by the pass while the server assigns non-local ids |
| Upload.SyncPassRetiresLocalIds | app/src/main/java/com/example/gestionusuarioshibrido/data/UserRepository.kt:85-90 | no processed `local_` row keeps its temporary id |
| Upload.PurgePassRows | app/src/main/java/com/example/gestionusuarioshibrido/data/UserRepository.kt:104-116 | every listed tombstone is physically deleted, whatever the server answered, and no other row |
| Upload.PurgePassRequests | app/src/main/java/com/example/gestionusuarioshibrido/data/UserRepository.kt:104-112 | the second loop sends exactly the deletes for the non-local tombstones |
| Upload.UploadLeavesTableClean | app/src/main/java/com/example/gestionusuarioshibrido/data/UserRepository.kt:78-118 | after a successful upload no row has a pending flag |
| Upload.CleanTableUploadsNothing | app/src/main/java/com/example/gestionusuarioshibrido/data/UserRepository.kt:78-118 | with nothing dirty and no tombstone, both listings are empty, nothing is sent and the table is unchanged |
| Upload.UploadSendsOnlyWrites | app/src/main/java/com/example/gestionusuarioshibrido/data/UserRepository.kt:78-123 | the upload only appends POST, PUT and DELETE requests to the log, never a listing request |
| Download.Partition | app/src/main/java/com/example/gestionusuarioshibrido/data/UserRepository.kt:137-143 | the two lists together are as long as the server's listing |
| Download.PartitionMembers | app/src/main/java/com/example/gestionusuarioshibrido/data/UserRepository.kt:137-143 | a record is in the update list exactly when its id is a local key, in the insert list exactly when it is not |
| Download.PartitionKeepsLatest | app/src/main/java/com/example/gestionusuarioshibrido/data/UserRepository.kt:137-143 | each list keeps, per id it holds, the last record the server sent with that id |
| Download.Merge | app/src/main/java/com/example/gestionusuarioshibrido/data/UserRepository.kt:145-151 | the table after the download: bulk update with the known records, then bulk insert of the new ones; keys stay well formed (characterised by `MergeAt` and `MergeKeys`) |
| Download.MergeAt | app/src/main/java/com/example/gestionusuarioshibrido/data/UserRepository.kt:145-151 | after the download each key holds the last record the server sent with that id, else its old row |
| Download.MergeKeys | app/src/main/java/com/example/gestionusuarioshibrido/data/UserRepository.kt:145-151 | no local row is removed: the keys become the old keys plus the server's ids |
| Download.MergeIdempotent | app/src/main/java/com/example/gestionusuarioshibrido/data/UserRepository.kt:125-153 | downloading the same listing twice gives the table of downloading it once |
| Download.MergeOrderIrrelevantAt | app/src/main/java/com/example/gestionusuarioshibrido/data/UserRepository.kt:145-151 | at each key, inserting the new records before the updates gives what the download gives |
| Download.MergeOrderIrrelevant | app/src/main/java/com/example/gestionusuarioshibrido/data/UserRepository.kt:145-151 | the updates and inserts touch disjoint keys, so inserting first would give the same table |
| Download.MergeKeepsClean | app/src/main/java/com/example/gestionusuarioshibrido/data/UserRepository.kt:145-151 | a clean table stays clean when the server lists clean records |
| Repository.UploadSummary | app/src/main/java/com/example/gestionusuarioshibrido/data/UserRepository.kt:118 | the upload's success message, "Subida: N actualizados, M borrados", with both counts in decimal (`Text.NatToStringValue` reads them back) |
| Repository.DownloadSummary | app/src/main/java/com/example/gestionusuarioshibrido/data/UserRepository.kt:153 | the download's success message, "Descarga: N nuevos, M actualizados", new records first, in decimal |
| Repository.UploadOutcome | app/src/main/java/com/example/gestionusuarioshibrido/data/UserRepository.kt:78-123 | the upload phase: it fails exactly when the first loop fails, with the upload prefix and what the loop did; otherwise the tombstones are purged and both counts reported; keys stay well formed |
| Repository.DownloadOutcome | app/src/main/java/com/example/gestionusuarioshibrido/data/UserRepository.kt:125-158 | the download phase: one GET appended to the log; an error exactly when the GET fails, with the table untouched; otherwise `Merge` and the counts of new and known records |
| Repository.InsertedRowIsVisibleAndPending | app/src/main/java/com/example/gestionusuarioshibrido/data/UserRepository.kt:45-46 | a saved record is in the active view and queued for upload, with the given business fields and both flags forced |
| Repository.UpdatedRowIsPending | app/src/main/java/com/example/gestionusuarioshibrido/data/UserRepository.kt:56-57 | an edit keeps the row set, keeps `pendingDelete` as given and queues a non-tombstone for upload |
| Repository.LogicalDeleteHidesRow | app/src/main/java/com/example/gestionusuarioshibrido/data/UserRepository.kt:66-68 | a logical delete keeps the row set but moves the row out of the active view and the upload queue into the tombstones |
| Repository.LocalWritesKeepFlagsConsistent | app/src/main/java/com/example/gestionusuarioshibrido/data/UserRepository.kt:42-73 | the three local writes keep "`pendingDelete` implies `pendingSync`" |
| Repository.CreatedTombstoneBreaksFlags | app/src/main/java/com/example/gestionusuarioshibrido/data/UserRepository.kt:85-90 | a remote create answered with a record marked deleted leaves a tombstone that is not pending: the rule breaks |
| Repository.DownloadedTombstoneBreaksFlags | app/src/main/java/com/example/gestionusuarioshibrido/data/UserRepository.kt:145-151 | a downloaded record marked deleted but not pending breaks the rule |
| Repository.SyncPassKeepsFlags | app/src/main/java/com/example/gestionusuarioshibrido/data/UserRepository.kt:84-98 | the first loop keeps the rule when no listed row is a tombstone and the server creates no record marked deleted |
| Repository.PurgePassKeepsFlags | app/src/main/java/com/example/gestionusuarioshibrido/data/UserRepository.kt:101-116 | the second loop always keeps the rule |
| Repository.MergeKeepsFlags | app/src/main/java/com/example/gestionusuarioshibrido/data/UserRepository.kt:145-151 | the download keeps the rule when every listed record obeys it |
| Repository.UploadKeepsFlags | app/src/main/java/com/example/gestionusuarioshibrido/data/UserRepository.kt:78-123 | a whole upload keeps the rule when the server creates no record marked deleted |
| Repository.DownloadKeepsRemoteFlags | app/src/main/java/com/example/gestionusuarioshibrido/data/UserRepository.kt:145-151 | a downloaded record is stored with the server's flags, so a record sent dirty is queued for upload again |
| Repository.SecondSyncChangesNothing | app/src/main/java/com/example/gestionusuarioshibrido/data/UserRepository.kt:78-158 | after a successful sync against a server listing clean records, a second sync with the same listing sends no write and leaves the table unchanged |
| Repository.SplitByLocalIds | app/src/main/java/com/example/gestionusuarioshibrido/data/UserRepository.kt:133-143 | the separating loop computes exactly `Partition` of the server's listing by the local ids |
| Repository.DefaultUserRepository.GetAllUsersStream | app/src/main/java/com/example/gestionusuarioshibrido/data/UserRepository.kt:37-40 | returns exactly the active view |
| Repository.DefaultUserRepository.InsertUser | app/src/main/java/com/example/gestionusuarioshibrido/data/UserRepository.kt:42-51 | upserts the record with `pendingSync` set and `pendingDelete` clear, whatever flags it came with, and reports success |
| Repository.DefaultUserRepository.UpdateUser | app/src/main/java/com/example/gestionusuarioshibrido/data/UserRepository.kt:53-62 | updates by key with `pendingSync` set and everything else as given, and reports success |
| Repository.DefaultUserRepository.DeleteUser | app/src/main/java/com/example/gestionusuarioshibrido/data/UserRepository.kt:64-73 | updates by key with both flags set (no physical delete), and reports success |
| Repository.DefaultUserRepository.SyncRow | app/src/main/java/com/example/gestionusuarioshibrido/data/UserRepository.kt:85-96 | one iteration of the first loop changes the table and the log exactly as `SyncOne` says |
| Repository.DefaultUserRepository.PurgeRow | app/src/main/java/com/example/gestionusuarioshibrido/data/UserRepository.kt:104-115 | one iteration of the second loop: a DELETE only for a non-local id, its answer ignored, then the local row removed |
| Repository.DefaultUserRepository.SyncDirtyRows | app/src/main/java/com/example/gestionusuarioshibrido/data/UserRepository.kt:84-98 | the first loop leaves the table, the log, the failure and the count of updated rows exactly as `SyncPass` says |
| Repository.DefaultUserRepository.PurgeTombstones | app/src/main/java/com/example/gestionusuarioshibrido/data/UserRepository.kt:101-116 | the second loop leaves the table and the log exactly as `PurgePass` says and counts every tombstone |
| Repository.DefaultUserRepository.UploadPendingChanges | app/src/main/java/com/example/gestionusuarioshibrido/data/UserRepository.kt:78-123 | reads the dirty rows and, when the first loop succeeds, the tombstones; the result, the table and the log are exactly `UploadOutcome` of those listings; only writes are ever sent |
| Repository.DefaultUserRepository.ApplyDownload | app/src/main/java/com/example/gestionusuarioshibrido/data/UserRepository.kt:145-151 | bulk update then bulk insert, each skipped when empty, gives the same table as always running both |
| Repository.DefaultUserRepository.SyncFromServer | app/src/main/java/com/example/gestionusuarioshibrido/data/UserRepository.kt:125-158 | the result, the table and the log are exactly `DownloadOutcome` of the old table and log |
| ViewModel.IsWhitespace | app/src/main/java/com/example/gestionusuarioshibrido/viewmodel/UserViewModel.kt:46 | Kotlin's `Char.isWhitespace`, which is Java's `Character.isWhitespace` or `Character.isSpaceChar`: U+0009-U+000D, U+001C-U+0020, U+00A0, U+1680, U+2000-U+200A, U+2028, U+2029, U+202F, U+205F and U+3000 |
| ViewModel.IsBlank | app/src/main/java/com/example/gestionusuarioshibrido/viewmodel/UserViewModel.kt:46 | `String.isBlank`: the id is empty or made only of those whitespace characters |
| ViewModel.TemporaryId | app/src/main/java/com/example/gestionusuarioshibrido/viewmodel/UserViewModel.kt:47 | the minted id starts with `local_` and is not blank |
| ViewModel.TemporaryIdsDistinct | app/src/main/java/com/example/gestionusuarioshibrido/viewmodel/UserViewModel.kt:47 | different clock readings mint different ids |
| ViewModel.UserToSave | app/src/main/java/com/example/gestionusuarioshibrido/viewmodel/UserViewModel.kt:46-50 | a blank id is replaced by a `local_` id with every other field kept; a non-blank record passes unchanged; the result never has a blank id |
| ViewModel.UserToSaveIdempotent | app/src/main/java/com/example/gestionusuarioshibrido/viewmodel/UserViewModel.kt:46-50 | preparing a prepared record changes nothing |
| ViewModel.TestUser | app/src/main/java/com/example/gestionusuarioshibrido/viewmodel/UserViewModel.kt:73-85 | the test user has a `local_` id, an email built from the same clock reading, an age in [18, 90), and is dirty |
| ViewModel.TestUserIsPendingUpload | app/src/main/java/com/example/gestionusuarioshibrido/viewmodel/UserViewModel.kt:72-86 | saving the test user stores it unchanged, visible and queued for upload |
| ViewModel.Notice | app/src/main/java/com/example/gestionusuarioshibrido/viewmodel/UserViewModel.kt:109-113 | an error yields its message, a success yields nothing |
| ViewModel.DownloadNotice | app/src/main/java/com/example/gestionusuarioshibrido/viewmodel/UserViewModel.kt:102-105 | a download success yields its message, an error its message after "Error descargando: " |
| ViewModel.UserViewModel.HandleResult | app/src/main/java/com/example/gestionusuarioshibrido/viewmodel/UserViewModel.kt:109-113 | emits the error's message, nothing for a success |
| ViewModel.UserViewModel.InsertUser | app/src/main/java/com/example/gestionusuarioshibrido/viewmodel/UserViewModel.kt:44-55 | saves the prepared record through the repository; local writes succeed, so nothing is emitted |
| ViewModel.UserViewModel.UpdateUser | app/src/main/java/com/example/gestionusuarioshibrido/viewmodel/UserViewModel.kt:57-62 | delegates the edit and emits nothing |
| ViewModel.UserViewModel.DeleteUser | app/src/main/java/com/example/gestionusuarioshibrido/viewmodel/UserViewModel.kt:64-69 | delegates the logical delete and emits nothing |
| ViewModel.UserViewModel.AddTestUser | app/src/main/java/com/example/gestionusuarioshibrido/viewmodel/UserViewModel.kt:72-87 | stores the test user exactly as built |
| ViewModel.UserViewModel.UploadStep | app/src/main/java/com/example/gestionusuarioshibrido/viewmodel/UserViewModel.kt:94-98 | runs the repository upload: `dirty` lists the rows to upload; when the first loop succeeds, `tombstones` lists the tombstones it left, otherwise it is empty; result, table and log are `UploadOutcome` of those listings; emits "Error subiendo: " and the message exactly when it failed; only writes are sent |
| ViewModel.UserViewModel.DownloadStep | app/src/main/java/com/example/gestionusuarioshibrido/viewmodel/UserViewModel.kt:100-105 | runs the repository download: result, table and log are `DownloadOutcome`; emits its message, prefixed with "Error descargando: " on an error |
| ViewModel.UserViewModel.Sync | app/src/main/java/com/example/gestionusuarioshibrido/viewmodel/UserViewModel.kt:89-107 | upload first, over the listing of rows to upload and, when the first loop succeeds, the listing of the tombstones it left. A failed upload ends the sync with its changes kept, no GET, and the start message plus the doubly prefixed error. Otherwise the download runs from the table and log the upload left, the final table and log are its outcome, the GET is the last request, and the start message plus the download notice are emitted |

## Left out

- Coroutines, `Flow`, `StateFlow` and `SharedFlow` are not modelled, because each operation is one atomic sequential step. `getAllActiveUsersStream` is a snapshot of the active view. The message flow is the `messages` sequence. Concurrent or overlapping syncs are not modelled.
- Exceptions from the local database are not modelled, because the table is a map and its writes cannot fail. The `catch` branches of the local writes ("Error al insertar usuario" and the like) are therefore unreachable. A local failure inside the two sync phases is likewise unreachable.
- The network is modelled only as an oracle: each remote answer is a function of the requests already sent and the call's arguments. An exception's message, including a null one rendered as "null", is the `Fail` message. HTTP, Retrofit and JSON decoding are not modelled.
- `System.nanoTime()` and `Random.nextInt` become parameters: any integer for the clock, and each draw within the range it was asked for. The uniqueness of clock readings is not modelled, but `TemporaryIdsDistinct` states that distinct readings give distinct ids.
- ViewModel.UserViewModel.AddTestUser: the clock reading that the inner `insertUser` would take is not a separate parameter. The test user's id is `TemporaryId`, which is never blank, and `UserToSave` passes a record with a non-blank id unchanged, so that reading is never used.
- `Log.e` in the tombstone loop is not modelled. It only logs.
- `RepositoryResult.Error`'s exception is modelled by its message only.
- `getAllIds` returns a list, modelled as a set of keys. The download only tests membership in it.
- The order in which a query lists its rows is not modelled: any order is allowed.
- `Network.AssignsServerIds` and `Network.CreatesLiveRecords` are assumptions about the server, not something the client checks. The lemmas about re-keying and about keeping the flag rule take them as hypotheses.
- Fields of the user record come from the record built in `addTestUser`. `User.kt` is not part of this model.
- The UI screens, navigation, the shake sensor and its coordinator, and `AppContainer` wiring are not part of this model.

=== FILE: download.dfy ===
/** The download phase of a synchronisation: the server's records are split by
    whether their id is already a local key, the known ones are applied as
    updates, then the new ones are inserted. */
module Download {
  import opened Users
  import opened Local

  /** Splits the server's records, in order, into those whose id is in `ids`
      (to update) and the others (to insert). */
  function Partition(rs: seq<User>, ids: set<string>): (p: (seq<User>, seq<User>))
    ensures |p.0| + |p.1| == |rs|
    decreases |rs|
  {
    if rs == [] then ([], [])
    else
      var rest := Partition(rs[1..], ids);
      if rs[0].id in ids then ([rs[0]] + rest.0, rest.1) else (rest.0, [rs[0]] + rest.1)
  }

  /** The split loses and invents nothing: a record lands in the first half
      exactly when its id is in `ids`, in the second exactly when it is not. */
  lemma {:induction false} PartitionMembers(rs: seq<User>, ids: set<string>)
    ensures forall u :: u in Partition(rs, ids).0 <==> u in rs && u.id in ids
    ensures forall u :: u in Partition(rs, ids).1 <==> u in rs && u.id !in ids
    decreases |rs|
  {
    if rs != [] {
      PartitionMembers(rs[1..], ids);
      assert rs == [rs[0]] + rs[1..];
    }
  }

  /** The table after the download: bulk update with the known records, then
      bulk insert of the new ones. */
  function Merge(t: Table, rs: seq<User>): (m: Table)
    ensures WellKeyed(t) ==> WellKeyed(m)
  {
    var p := Partition(rs, t.Keys);
    UpsertAll(UpdateAll(t, p.0), p.1)
  }

  /** Each half of the split keeps, for each id it holds, the last record the
      server sent with that id. */
  lemma {:induction false} PartitionKeepsLatest(rs: seq<User>, ids: set<string>, id: string)
    ensures LastWithId(Partition(rs, ids).0, id) == (if id in ids then LastWithId(rs, id) else None)
    ensures LastWithId(Partition(rs, ids).1, id) == (if id in ids then None else LastWithId(rs, id))
    decreases |rs|
  {
    if rs != [] {
      PartitionKeepsLatest(rs[1..], ids, id);
      var rest := Partition(rs[1..], ids);
      assert ([rs[0]] + rest.0)[1..] == rest.0;
      assert ([rs[0]] + rest.1)[1..] == rest.1;
    }
  }

  /** After the download each key holds the last record the server sent with
      that id, or, if the server sent none, what it held before. */
  lemma MergeAt(t: Table, rs: seq<User>, id: string)
    ensures Find(Merge(t, rs), id) == Latest(t, rs, id)
  {
    var p := Partition(rs, t.Keys);
    PartitionKeepsLatest(rs, t.Keys, id);
    UpsertAllAt(UpdateAll(t, p.0), p.1, id);
    UpdateAllAt(t, p.0, id);
  }

  /** The download never removes a local row: the keys afterwards are the old
      keys plus the ids the server sent. */
  lemma MergeKeys(t: Table, rs: seq<User>)
    ensures Merge(t, rs).Keys == t.Keys + IdsOf(rs)
  {
    forall id
      ensures id in Merge(t, rs) <==> id in t || id in IdsOf(rs)
    {
      MergeAt(t, rs, id);
    }
  }

  /** Downloading the same server listing twice gives the table of downloading it once. */
  lemma MergeIdempotent(t: Table, rs: seq<User>)
    ensures Merge(Merge(t, rs), rs) == Merge(t, rs)
  {
    var once := Merge(t, rs);
    forall id
      ensures Find(Merge(once, rs), id) == Find(once, id)
    {
      MergeAt(once, rs, id);
      MergeAt(t, rs, id);
    }
    TablesEqual(Merge(once, rs), once);
  }

  /** At each key, inserting the new records before applying the updates
      gives what the download gives. */
  lemma MergeOrderIrrelevantAt(t: Table, rs: seq<User>, id: string)
    ensures var p := Partition(rs, t.Keys);
            Find(Merge(t, rs), id) == Find(UpdateAll(UpsertAll(t, p.1), p.0), id)
  {
    var p := Partition(rs, t.Keys);
    MergeAt(t, rs, id);
    PartitionKeepsLatest(rs, t.Keys, id);
    UpdateAllAt(UpsertAll(t, p.1), p.0, id);
    UpsertAllAt(t, p.1, id);
  }

  /** Updates and inserts touch disjoint keys, so applying the inserts first
      would give the same table. */
  lemma MergeOrderIrrelevant(t: Table, rs: seq<User>)
    ensures var p := Partition(rs, t.Keys);
            Merge(t, rs) == UpdateAll(UpsertAll(t, p.1), p.0)
  {
    var p := Partition(rs, t.Keys);
    forall id
      ensures Find(Merge(t, rs), id) == Find(UpdateAll(UpsertAll(t, p.1), p.0), id)
    {
      MergeOrderIrrelevantAt(t, rs, id);
    }
    TablesEqual(Merge(t, rs), UpdateAll(UpsertAll(t, p.1), p.0));
  }

  /** If the table and every record the server sends are clean, the table
      stays clean: a second synchronisation then has nothing to upload. */
  lemma MergeKeepsClean(t: Table, rs: seq<User>)
    requires forall id :: id in t ==> IsClean(t[id])
    requires forall i :: 0 <= i < |rs| ==> IsClean(rs[i])
    ensures var m := Merge(t, rs);
            forall id :: id in m ==> IsClean(m[id])
  {
    var m := Merge(t, rs);
    forall id | id in m
      ensures IsClean(m[id])
    {
      MergeAt(t, rs, id);
      assert Find(m, id) == Some(m[id]);
    }
  }
}

=== FILE: local_dao.dfy ===
/** The local `users` table behind the Room DAO: a keyed table changed in place
    by insert-or-replace, update, delete and clear, and read through filters on
    the two sync flags. */
module Local {
  import opened Users

  /** The table: primary key (the user id) to row. */
  type Table = map<string, User>

  /** Every row is stored under its own id. */
  predicate WellKeyed(t: Table) {
    forall id :: id in t ==> t[id].id == id
  }

  /** The ids of a list of records. */
  function IdsOf(us: seq<User>): set<string> {
    set u | u in us :: u.id
  }

  /** The ids of a non-empty list: the first record's and those of the rest. */
  lemma IdsOfCons(us: seq<User>)
    requires us != []
    ensures IdsOf(us) == {us[0].id} + IdsOf(us[1..])
  {
    assert us == [us[0]] + us[1..];
  }

  /** `getUserById`: the row with that key, or null. */
  function Find(t: Table, id: string): Option<User> {
    if id in t then Some(t[id]) else None
  }

  // ---------------------------------------------------------------------------
  // Writes

  /** `@Insert(onConflict = REPLACE)`: the record is stored under its id,
      replacing the row with the same key if there is one; no other row moves. */
  function Upsert(t: Table, u: User): (r: Table)
    ensures WellKeyed(t) ==> WellKeyed(r)
    ensures r.Keys == t.Keys + {u.id}
    ensures Find(r, u.id) == Some(u)
    ensures forall id :: id != u.id ==> Find(r, id) == Find(t, id)
  {
    t[u.id := u]
  }

  /** `@Update`: the row whose key is the record's id takes the record; when
      no row has that key nothing changes (no row is created). */
  function Update(t: Table, u: User): (r: Table)
    ensures WellKeyed(t) ==> WellKeyed(r)
    ensures r.Keys == t.Keys
    ensures u.id in t ==> r[u.id] == u
    ensures forall id :: id != u.id ==> Find(r, id) == Find(t, id)
  {
    if u.id in t then t[u.id := u] else t
  }

  /** `@Delete`: physically removes the row with that key, and nothing else. */
  function Remove(t: Table, id: string): (r: Table)
    ensures WellKeyed(t) ==> WellKeyed(r)
    ensures r.Keys == t.Keys - {id}
    ensures forall k :: k != id ==> Find(r, k) == Find(t, k)
  {
    t - {id}
  }

  /** Bulk `insertUsers`: the records are upserted one after another. */
  function UpsertAll(t: Table, us: seq<User>): (r: Table)
    ensures WellKeyed(t) ==> WellKeyed(r)
    decreases |us|
  {
    if us == [] then t else UpsertAll(Upsert(t, us[0]), us[1..])
  }

  /** Bulk `updateUsers`: the records are applied one after another as updates. */
  function UpdateAll(t: Table, us: seq<User>): (r: Table)
    ensures WellKeyed(t) ==> WellKeyed(r)
    decreases |us|
  {
    if us == [] then t else UpdateAll(Update(t, us[0]), us[1..])
  }

  /** The last record of `us` whose id is `id`, if any. */
  function LastWithId(us: seq<User>, id: string): (r: Option<User>)
    ensures r.Some? ==> r.value in us && r.value.id == id
    ensures r.None? <==> id !in IdsOf(us)
    decreases |us|
  {
    if us == [] then None
    else
      match LastWithId(us[1..], id)
      case Some(u) => Some(u)
      case None => if us[0].id == id then Some(us[0]) else None
  }

  /** What a key holds once the records `us` have been written over `t`:
      the last record with that key, else what `t` held. */
  function Latest(t: Table, us: seq<User>, id: string): Option<User> {
    match LastWithId(us, id)
    case Some(u) => Some(u)
    case None => Find(t, id)
  }

  // ---------------------------------------------------------------------------
  // Queries

  /** `getAllActiveUsersStream`: `WHERE pendingDelete = 0`. */
  function ActiveView(t: Table): Table {
    map id | id in t && !t[id].pendingDelete :: t[id]
  }

  /** `getUsersToSync`: `WHERE pendingSync = 1 AND pendingDelete = 0`. */
  function ToSync(t: Table): Table {
    map id | id in t && IsDirty(t[id]) :: t[id]
  }

  /** `getUsersToDelete`: `WHERE pendingDelete = 1`. */
  function ToDelete(t: Table): Table {
    map id | id in t && t[id].pendingDelete :: t[id]
  }

  /** `us` is a query result for the rows of `m`, in some order the database
      chooses: its first record is one of the rows, and the rest of it lists
      the other rows (`ListingElements` spells out what that means). */
  predicate Lists(us: seq<User>, m: Table)
    decreases |us|
  {
    if us == [] then m.Keys == {}
    else us[0].id in m && m[us[0].id] == us[0] && Lists(us[1..], m - {us[0].id})
  }

  // ---------------------------------------------------------------------------
  // Lemmas about the table

  /** Two tables that agree at every key are the same table. */
  lemma TablesEqual(a: Table, b: Table)
    requires forall id :: Find(a, id) == Find(b, id)
    ensures a == b
  {
    assert a.Keys == b.Keys by {
      forall id ensures id in a <==> id in b {
        assert Find(a, id) == Find(b, id);
      }
    }
    forall id | id in a
      ensures a[id] == b[id]
    {
      assert Find(a, id) == Find(b, id);
    }
  }

  /** Upserting the same record twice is the same as upserting it once. */
  lemma UpsertIdempotent(t: Table, u: User)
    ensures Upsert(Upsert(t, u), u) == Upsert(t, u)
  {
  }

  /** After bulk insert, each key holds the last record written under it, or
      what it held before; keys only grow. */
  lemma {:induction false} UpsertAllAt(t: Table, us: seq<User>, id: string)
    ensures Find(UpsertAll(t, us), id) == Latest(t, us, id)
    ensures (id in UpsertAll(t, us)) <==> (id in t || id in IdsOf(us))
    decreases |us|
  {
    if us != [] {
      UpsertAllAt(Upsert(t, us[0]), us[1..], id);
      IdsOfCons(us);
    }
  }

  /** After bulk update, the keys are those of `t`; each existing key holds
      the last record written under it, or what it held before. */
  lemma {:induction false} UpdateAllAt(t: Table, us: seq<User>, id: string)
    ensures UpdateAll(t, us).Keys == t.Keys
    ensures Find(UpdateAll(t, us), id) == (if id in t then Latest(t, us, id) else None)
    decreases |us|
  {
    if us != [] {
      UpdateAllAt(Update(t, us[0]), us[1..], id);
    }
  }

  /** A listing holds every row of the table exactly once and nothing else:
      each record is the table's row under its id, no id occurs twice, and
      every row occurs. */
  lemma {:induction false} ListingElements(us: seq<User>, m: Table)
    requires Lists(us, m)
    ensures forall i :: 0 <= i < |us| ==> us[i].id in m && m[us[i].id] == us[i]
    ensures forall i, j :: 0 <= i < j < |us| ==> us[i].id != us[j].id
    ensures forall id :: id in m ==> m[id] in us
    decreases |us|
  {
    if us != [] {
      var m' := m - {us[0].id};
      ListingElements(us[1..], m');
      forall i | 0 < i < |us|
        ensures us[i].id in m && m[us[i].id] == us[i] && us[i].id != us[0].id
      {
        assert us[i] == us[1..][i - 1];
      }
      forall i, j | 0 < i < j < |us|
        ensures us[i].id != us[j].id
      {
        assert us[i] == us[1..][i - 1] && us[j] == us[1..][j - 1];
      }
      forall id | id in m
        ensures m[id] in us
      {
        if id != us[0].id {
          assert m'[id] in us[1..];
        }
      }
    }
  }

  /** A row put in front of a listing of the other rows gives a listing. */
  lemma ListingPrepend(us: seq<User>, m: Table, u: User)
    requires Lists(us, m) && u.id !in m
    ensures Lists([u] + us, m[u.id := u])
  {
    assert ([u] + us)[1..] == us;
    assert m[u.id := u] - {u.id} == m;
  }

  /** A listing has exactly as many records as the rows it lists. */
  lemma {:induction false} ListingSize(us: seq<User>, m: Table)
    requires Lists(us, m)
    ensures |us| == |m.Keys|
    decreases |us|
  {
    if us != [] {
      var x := us[0].id;
      ListingSize(us[1..], m - {x});
      assert (m - {x}).Keys == m.Keys - {x};
    }
  }

  /** A listing names exactly the keys of the rows it lists. */
  lemma {:induction false} ListingIds(us: seq<User>, m: Table)
    requires Lists(us, m)
    ensures IdsOf(us) == m.Keys
    decreases |us|
  {
    if us != [] {
      var x := us[0].id;
      ListingIds(us[1..], m - {x});
      IdsOfCons(us);
      assert (m - {x}).Keys == m.Keys - {x};
    }
  }

  /** The active view and the tombstones split the table exactly; the rows
      waiting for upload are active ones; the upload and delete queries never
      return the same row. */
  lemma QueriesPartitionTable(t: Table)
    ensures ActiveView(t).Keys !! ToDelete(t).Keys
    ensures ActiveView(t).Keys + ToDelete(t).Keys == t.Keys
    ensures ToSync(t).Keys <= ActiveView(t).Keys
    ensures ToSync(t).Keys !! ToDelete(t).Keys
    ensures forall id :: id in ActiveView(t) ==> !ActiveView(t)[id].pendingDelete
  {
  }

  // ---------------------------------------------------------------------------
  // The DAO

  /** Lists the rows of `m` in an order of the database's choosing. */
  method ListRows(m: Table) returns (us: seq<User>)
    requires WellKeyed(m)
    ensures Lists(us, m)
  {
    var rest := m.Keys;
    ghost var done: Table := map[];
    us := [];
    while rest != {}
      invariant rest <= m.Keys
      invariant forall id :: id in done <==> id in m && id !in rest
      invariant forall id :: id in done ==> done[id] == m[id]
      invariant Lists(us, done)
      decreases rest
    {
      var id :| id in rest;
      ListingPrepend(us, done, m[id]);
      us := [m[id]] + us;
      done := done[id := m[id]];
      rest := rest - {id};
    }
    assert done == m;
  }

  class UserDao {
    var rows: Table

    ghost predicate Valid()
      reads this
    {
      WellKeyed(rows)
    }

    constructor ()
      ensures Valid() && rows == map[]
    {
      rows := map[];
    }

    method GetAllActiveUsersStream() returns (users: seq<User>)
      requires Valid()
      ensures Lists(users, ActiveView(rows))
    {
      users := ListRows(ActiveView(rows));
    }

    method GetUserById(userId: string) returns (user: Option<User>)
      requires Valid()
      ensures user.Some? <==> userId in rows
      ensures user.Some? ==> user.value == rows[userId] && user.value.id == userId
    {
      user := Find(rows, userId);
    }

    method InsertUser(user: User)
      requires Valid()
      modifies this
      ensures Valid()
      ensures rows == Upsert(old(rows), user)
    {
      rows := rows[user.id := user];
    }

    method UpdateUser(user: User)
      requires Valid()
      modifies this
      ensures Valid()
      ensures rows == Update(old(rows), user)
    {
      if user.id in rows {
        rows := rows[user.id := user];
      }
    }

    method DeleteUser(user: User)
      requires Valid()
      modifies this
      ensures Valid()
      ensures rows == Remove(old(rows), user.id)
    {
      rows := rows - {user.id};
    }

    method DeleteAllUsers()
      modifies this
      ensures Valid()
      ensures rows == map[]
    {
      rows := map[];
    }

    method InsertUsers(users: seq<User>)
      requires Valid()
      modifies this
      ensures Valid()
      ensures rows == UpsertAll(old(rows), users)
    {
      for i := 0 to |users|
        invariant Valid()
        invariant UpsertAll(rows, users[i..]) == UpsertAll(old(rows), users)
      {
        assert users[i..][1..] == users[i + 1..];
        rows := rows[users[i].id := users[i]];
      }
    }

    method UpdateUsers(users: seq<User>)
      requires Valid()
      modifies this
      ensures Valid()
      ensures rows == UpdateAll(old(rows), users)
    {
      for i := 0 to |users|
        invariant Valid()
        invariant UpdateAll(rows, users[i..]) == UpdateAll(old(rows), users)
      {
        assert users[i..][1..] == users[i + 1..];
        if users[i].id in rows {
          rows := rows[users[i].id := users[i]];
        }
      }
    }

    method GetUsersToSync() returns (users: seq<User>)
      requires Valid()
      ensures Lists(users, ToSync(rows))
    {
      users := ListRows(ToSync(rows));
    }

    method GetUsersToDelete() returns (users: seq<User>)
      requires Valid()
      ensures Lists(users, ToDelete(rows))
    {
      users := ListRows(ToDelete(rows));
    }

    /** `getAllIds`: the key of every row, tombstones included. */
    method GetAllIds() returns (ids: set<string>)
      ensures ids == rows.Keys
      ensures ToDelete(rows).Keys <= ids
    {
      ids := rows.Keys;
    }
  }
}

=== FILE: network.dfy ===
/** The remote user service, seen from the client: four calls, each of which
    answers with a value or fails. The server itself is an oracle: its answer
    to a call may depend on everything the client has sent before. */
module Network {
  import opened Users

  /** The requests the client can send (GET, POST, PUT and DELETE on `users`). */
  datatype Request =
    | GetAll
    | Create(user: User)
    | Put(id: string, user: User)
    | Delete(id: string)

  /** The outcome of one call: the decoded answer, or the failure's message. */
  datatype Call<T> = Ok(value: T) | Fail(message: string)

  /** How the server answers each call, given the requests already sent. */
  datatype Server = Server(
    getAll: seq<Request> -> Call<seq<User>>,
    create: (seq<Request>, User) -> Call<User>,
    update: (seq<Request>, string, User) -> Call<User>,
    delete: (seq<Request>, string) -> Call<User>)

  /** The ids the server assigns on creation never look like local ids. */
  ghost predicate AssignsServerIds(server: Server) {
    forall sent, u :: server.create(sent, u).Ok? ==> !IsLocalId(server.create(sent, u).value.id)
  }

  /** The records the server returns from a creation are never marked deleted. */
  ghost predicate CreatesLiveRecords(server: Server) {
    forall sent, u :: server.create(sent, u).Ok? ==> !server.create(sent, u).value.pendingDelete
  }

  /** The client of the remote service. `sent` is the log of requests made so
      far, in order; the answers come from `server`. */
  class MockApiService {
    const server: Server
    var sent: seq<Request>

    constructor (server: Server)
      ensures this.server == server && sent == []
    {
      this.server := server;
      sent := [];
    }

    method GetAllUsers() returns (r: Call<seq<User>>)
      modifies this
      ensures sent == old(sent) + [GetAll]
      ensures r == server.getAll(old(sent))
    {
      r := server.getAll(sent);
      sent := sent + [GetAll];
    }

    method CreateUser(user: User) returns (r: Call<User>)
      modifies this
      ensures sent == old(sent) + [Create(user)]
      ensures r == server.create(old(sent), user)
    {
      r := server.create(sent, user);
      sent := sent + [Create(user)];
    }

    method UpdateUser(id: string, user: User) returns (r: Call<User>)
      modifies this
      ensures sent == old(sent) + [Put(id, user)]
      ensures r == server.update(old(sent), id, user)
    {
      r := server.update(sent, id, user);
      sent := sent + [Put(id, user)];
    }

    method DeleteUser(id: string) returns (r: Call<User>)
      modifies this
      ensures sent == old(sent) + [Delete(id)]
      ensures r == server.delete(old(sent), id)
    {
      r := server.delete(sent, id);
      sent := sent + [Delete(id)];
    }
  }
}

=== FILE: repository.dfy ===
/** The repository: optimistic local writes that mark rows for upload, and the
    two synchronisation phases between the local table and the remote service. */
module Repository {
  import opened Users
  import opened Text
  import opened Local
  import opened Network
  import opened Upload
  import opened Download

  /** The outcome of a repository operation, with a human-readable message and,
      for a failure, the message of the underlying exception. */
  datatype RepositoryResult =
    | Success(message: string)
    | Error(message: string, cause: Option<string>)

  const SavedMessage: string := "Usuario guardado en local"
  const UpdatedMessage: string := "Usuario actualizado en local"
  const MarkedMessage: string := "Usuario marcado para eliminar"
  const UploadFailedPrefix: string := "Error subiendo datos: "
  const DownloadFailedPrefix: string := "Error descargando datos: "

  function UploadSummary(updated: nat, deleted: nat): string {
    "Subida: " + NatToString(updated) + " actualizados, " + NatToString(deleted) + " borrados"
  }

  function DownloadSummary(inserted: nat, updated: nat): string {
    "Descarga: " + NatToString(inserted) + " nuevos, " + NatToString(updated) + " actualizados"
  }

  /** What a synchronisation phase leaves behind: its result, the table and
      the log of requests sent. */
  datatype Outcome = Outcome(result: RepositoryResult, rows: Table, sent: seq<Request>)

  /** The upload phase over the two listings it reads: the first loop over the
      dirty rows; on a failure, the error with the upload prefix and what the
      loop did so far; otherwise the second loop over the tombstones and the
      summary of both counts. */
  function UploadOutcome(t: Table, sent: seq<Request>, dirty: seq<User>, tombstones: seq<User>, server: Server): (o: Outcome)
    ensures o.result.Error? <==> SyncPass(t, sent, dirty, server).failure.Some?
    ensures WellKeyed(t) ==> WellKeyed(o.rows)
  {
    var p := SyncPass(t, sent, dirty, server);
    if p.failure.Some? then Outcome(Error(UploadFailedPrefix + p.failure.value, p.failure), p.rows, p.sent)
    else
      var q := PurgePass(p.rows, p.sent, tombstones);
      Outcome(Success(UploadSummary(|dirty|, |tombstones|)), q.0, q.1)
  }

  /** The download phase: one GET; on a failure, the error with the download
      prefix and the table untouched; otherwise the merged table and the
      counts of new and known records. */
  function DownloadOutcome(t: Table, sent: seq<Request>, server: Server): (o: Outcome)
    ensures o.sent == sent + [GetAll]
    ensures o.result.Error? <==> server.getAll(sent).Fail?
    ensures WellKeyed(t) ==> WellKeyed(o.rows)
  {
    match server.getAll(sent)
    case Fail(m) => Outcome(Error(DownloadFailedPrefix + m, Some(m)), t, sent + [GetAll])
    case Ok(rs) =>
      var split := Partition(rs, t.Keys);
      Outcome(Success(DownloadSummary(|split.1|, |split.0|)), Merge(t, rs), sent + [GetAll])
  }

  /** The rule of the data model: a tombstone is itself an unsynced change. */
  predicate FlagsConsistent(t: Table) {
    forall id :: id in t && t[id].pendingDelete ==> t[id].pendingSync
  }

  /** A saved record is immediately visible and queued for upload, with its
      business fields as given. */
  lemma InsertedRowIsVisibleAndPending(t: Table, u: User)
    ensures var r := Upsert(t, u.(pendingSync := true, pendingDelete := false));
            && u.id in ActiveView(r) && u.id in ToSync(r) && u.id !in ToDelete(r)
            && r[u.id] == u.(pendingSync := true, pendingDelete := false)
  {
  }

  /** An edited row is queued for upload unless it is a tombstone; the row set
      does not change. */
  lemma UpdatedRowIsPending(t: Table, u: User)
    ensures var r := Update(t, u.(pendingSync := true));
            && r.Keys == t.Keys
            && (u.id in t && !u.pendingDelete ==> u.id in ToSync(r))
            && (u.id in t ==> r[u.id].pendingDelete == u.pendingDelete)
  {
  }

  /** A logical delete keeps the row but hides it: it leaves the active view
      and the upload queue and joins the tombstones. */
  lemma LogicalDeleteHidesRow(t: Table, u: User)
    ensures var r := Update(t, u.(pendingDelete := true, pendingSync := true));
            && r.Keys == t.Keys
            && u.id !in ActiveView(r) && u.id !in ToSync(r)
            && (u.id in ToDelete(r) <==> u.id in t)
  {
  }

  /** The three local writes keep "pendingDelete implies pendingSync". */
  lemma LocalWritesKeepFlagsConsistent(t: Table, u: User)
    requires FlagsConsistent(t)
    ensures FlagsConsistent(Upsert(t, u.(pendingSync := true, pendingDelete := false)))
    ensures FlagsConsistent(Update(t, u.(pendingSync := true)))
    ensures FlagsConsistent(Update(t, u.(pendingDelete := true, pendingSync := true)))
  {
  }

  /** The remote create can break the rule: the server's record is stored with
      `pendingSync` cleared and its own `pendingDelete`. The same upload's
      second loop lists that row as a tombstone and removes it, so the rule
      stays broken only when a later dirty row's call stops the upload. */
  lemma CreatedTombstoneBreaksFlags(t: Table, sent: seq<Request>, u: User, server: Server)
    requires IsLocalId(u.id) && server.create(sent, u).Ok? && server.create(sent, u).value.pendingDelete
    ensures !FlagsConsistent(SyncOne(t, sent, u, server).rows)
  {
    SyncOneEffect(t, sent, u, server);
    assert server.create(sent, u).value.id in SyncOne(t, sent, u, server).rows;
  }

  /** The download can break the rule too: a record the server lists as
      deleted but not pending is stored as it comes. */
  lemma DownloadedTombstoneBreaksFlags(t: Table, u: User)
    requires u.pendingDelete && !u.pendingSync
    ensures !FlagsConsistent(Merge(t, [u]))
  {
    DownloadKeepsRemoteFlags(t, u);
  }

  /** The first upload loop keeps the rule when the listed rows are not
      tombstones (as the dirty-row query guarantees) and the server never
      creates a record marked deleted. */
  lemma {:induction false} SyncPassKeepsFlags(t: Table, sent: seq<Request>, us: seq<User>, server: Server)
    requires FlagsConsistent(t) && CreatesLiveRecords(server)
    requires forall i :: 0 <= i < |us| ==> !us[i].pendingDelete
    ensures FlagsConsistent(SyncPass(t, sent, us, server).rows)
    decreases |us|
  {
    if us != [] {
      var first := SyncOne(t, sent, us[0], server);
      if first.failure.None? {
        SyncOneEffect(t, sent, us[0], server);
        forall id | id in first.rows && first.rows[id].pendingDelete
          ensures first.rows[id].pendingSync
        {
          if IsLocalId(us[0].id) {
            assert id != server.create(sent, us[0]).value.id;
          } else {
            assert id != us[0].id;
          }
          assert Find(first.rows, id) == Find(t, id);
        }
        SyncPassKeepsFlags(first.rows, first.sent, us[1..], server);
      }
    }
  }

  /** The second upload loop always keeps the rule: it only removes rows. */
  lemma {:induction false} PurgePassKeepsFlags(t: Table, sent: seq<Request>, ts: seq<User>)
    requires FlagsConsistent(t)
    ensures FlagsConsistent(PurgePass(t, sent, ts).0)
    decreases |ts|
  {
    if ts != [] {
      var u := ts[0];
      var t1 := Remove(t, u.id);
      forall id | id in t1 && t1[id].pendingDelete
        ensures t1[id].pendingSync
      {
        assert Find(t1, id) == Find(t, id);
      }
      PurgePassKeepsFlags(t1, if IsLocalId(u.id) then sent else sent + [Delete(u.id)], ts[1..]);
    }
  }

  /** The download keeps the rule when every record the server lists obeys it. */
  lemma MergeKeepsFlags(t: Table, rs: seq<User>)
    requires FlagsConsistent(t)
    requires forall i :: 0 <= i < |rs| ==> (rs[i].pendingDelete ==> rs[i].pendingSync)
    ensures FlagsConsistent(Merge(t, rs))
  {
    var m := Merge(t, rs);
    forall id | id in m && m[id].pendingDelete
      ensures m[id].pendingSync
    {
      MergeAt(t, rs, id);
      assert Find(m, id) == Some(m[id]);
    }
  }

  /** A whole upload keeps the rule while the server never creates a record
      marked deleted. */
  lemma UploadKeepsFlags(t: Table, sent: seq<Request>, dirty: seq<User>, tombstones: seq<User>, server: Server)
    requires FlagsConsistent(t) && CreatesLiveRecords(server)
    requires Lists(dirty, ToSync(t))
    ensures FlagsConsistent(UploadOutcome(t, sent, dirty, tombstones, server).rows)
  {
    ListingElements(dirty, ToSync(t));
    SyncPassKeepsFlags(t, sent, dirty, server);
    var p := SyncPass(t, sent, dirty, server);
    PurgePassKeepsFlags(p.rows, p.sent, tombstones);
  }

  /** The download stores the server's records as they come, flags included: a
      record the server sends with `pendingSync` set becomes a row waiting for
      upload again. */
  lemma DownloadKeepsRemoteFlags(t: Table, u: User)
    ensures Merge(t, [u]).Keys == t.Keys + {u.id}
    ensures Merge(t, [u])[u.id] == u
    ensures IsDirty(u) ==> u.id in ToSync(Merge(t, [u]))
  {
    MergeAt(t, [u], u.id);
    MergeKeys(t, [u]);
    assert IdsOf([u]) == {u.id};
  }

  /** Synchronising twice against a server that lists the same clean records
      both times: the second upload finds nothing to send and the second
      download leaves the table as the first one left it. */
  lemma SecondSyncChangesNothing(t: Table, sent: seq<Request>, dirty: seq<User>, tombstones: seq<User>,
                                 rs: seq<User>, server: Server, sent2: seq<Request>, dirty2: seq<User>, tombstones2: seq<User>)
    requires WellKeyed(t) && Lists(dirty, ToSync(t))
    requires SyncPass(t, sent, dirty, server).failure.None?
    requires Lists(tombstones, ToDelete(SyncPass(t, sent, dirty, server).rows))
    requires forall i :: 0 <= i < |rs| ==> IsClean(rs[i])
    requires var p := SyncPass(t, sent, dirty, server);
             var t1 := Merge(PurgePass(p.rows, p.sent, tombstones).0, rs);
             Lists(dirty2, ToSync(t1)) && Lists(tombstones2, ToDelete(t1))
    ensures var p := SyncPass(t, sent, dirty, server);
            var t1 := Merge(PurgePass(p.rows, p.sent, tombstones).0, rs);
            && dirty2 == [] && tombstones2 == []
            && SyncPass(t1, sent2, dirty2, server) == Pass(t1, sent2, 0, None)
            && PurgePass(t1, sent2, tombstones2) == (t1, sent2)
            && Merge(t1, rs) == t1
  {
    var p := SyncPass(t, sent, dirty, server);
    var t0 := PurgePass(p.rows, p.sent, tombstones).0;
    var t1 := Merge(t0, rs);
    UploadLeavesTableClean(t, sent, dirty, tombstones, server);
    MergeKeepsClean(t0, rs);
    assert WellKeyed(t1);
    CleanTableUploadsNothing(t1, sent2, dirty2, tombstones2, server);
    MergeIdempotent(t0, rs);
  }

  /** The download's separating loop: the server's records, in order, whose id
      is already a local key, and the others. */
  method SplitByLocalIds(remoteUsers: seq<User>, localIds: set<string>) returns (usersToUpdate: seq<User>, usersToInsert: seq<User>)
    ensures (usersToUpdate, usersToInsert) == Partition(remoteUsers, localIds)
  {
    usersToInsert, usersToUpdate := [], [];
    for i := 0 to |remoteUsers|
      invariant Partition(remoteUsers, localIds).0 == usersToUpdate + Partition(remoteUsers[i..], localIds).0
      invariant Partition(remoteUsers, localIds).1 == usersToInsert + Partition(remoteUsers[i..], localIds).1
    {
      assert remoteUsers[i..][0] == remoteUsers[i] && remoteUsers[i..][1..] == remoteUsers[i + 1..];
      if remoteUsers[i].id in localIds {
        usersToUpdate := usersToUpdate + [remoteUsers[i]];
      } else {
        usersToInsert := usersToInsert + [remoteUsers[i]];
      }
    }
    assert remoteUsers[|remoteUsers|..] == [];
    assert Partition([], localIds) == ([], []);
    assert usersToUpdate + [] == usersToUpdate && usersToInsert + [] == usersToInsert;
  }

  class DefaultUserRepository {
    const local: UserDao
    const remote: MockApiService

    ghost predicate Valid()
      reads local
    {
      local.Valid()
    }

    constructor (local: UserDao, remote: MockApiService)
      requires local.Valid()
      ensures Valid() && this.local == local && this.remote == remote
    {
      this.local := local;
      this.remote := remote;
    }

    /** The rows the application shows: the active view only. */
    method GetAllUsersStream() returns (users: seq<User>)
      requires Valid()
      ensures Lists(users, ActiveView(local.rows))
    {
      users := local.GetAllActiveUsersStream();
    }

    method InsertUser(user: User) returns (r: RepositoryResult)
      requires Valid()
      modifies local
      ensures Valid()
      ensures local.rows == Upsert(old(local.rows), user.(pendingSync := true, pendingDelete := false))
      ensures r == Success(SavedMessage)
    {
      local.InsertUser(user.(pendingSync := true, pendingDelete := false));
      r := Success(SavedMessage);
    }

    method UpdateUser(user: User) returns (r: RepositoryResult)
      requires Valid()
      modifies local
      ensures Valid()
      ensures local.rows == Update(old(local.rows), user.(pendingSync := true))
      ensures r == Success(UpdatedMessage)
    {
      local.UpdateUser(user.(pendingSync := true));
      r := Success(UpdatedMessage);
    }

    method DeleteUser(user: User) returns (r: RepositoryResult)
      requires Valid()
      modifies local
      ensures Valid()
      ensures local.rows == Update(old(local.rows), user.(pendingDelete := true, pendingSync := true))
      ensures r == Success(MarkedMessage)
    {
      local.UpdateUser(user.(pendingDelete := true, pendingSync := true));
      r := Success(MarkedMessage);
    }

    /** One dirty row of the first upload loop: POST for a local id, after
        which the temporary row is replaced by the server's record, or PUT for
        any other id, after which the row is marked synced. */
    method SyncRow(user: User) returns (failure: Option<string>)
      requires Valid()
      modifies local, remote
      ensures Valid()
      ensures var one := SyncOne(old(local.rows), old(remote.sent), user, remote.server);
              local.rows == one.rows && remote.sent == one.sent && failure == one.failure
    {
      if IsLocalId(user.id) {
        var created := remote.CreateUser(user);
        if created.Fail? {
          return Some(created.message);
        }
        // the temporary row goes, the server's record takes its place
        local.DeleteUser(user);
        local.InsertUser(created.value.(pendingSync := false));
      } else {
        var updated := remote.UpdateUser(user.id, user);
        if updated.Fail? {
          return Some(updated.message);
        }
        local.UpdateUser(user.(pendingSync := false));
      }
      failure := None;
    }

    /** One tombstone of the second upload loop: a remote DELETE unless the id
        is local, whose answer is ignored, then the physical local delete. */
    method PurgeRow(user: User)
      requires Valid()
      modifies local, remote
      ensures Valid()
      ensures local.rows == PurgePass(old(local.rows), old(remote.sent), [user]).0
      ensures remote.sent == PurgePass(old(local.rows), old(remote.sent), [user]).1
    {
      if !IsLocalId(user.id) {
        // a failed remote delete is only logged: the answer is not used
        var ignored := remote.DeleteUser(user.id);
      }
      local.DeleteUser(user);
    }

    /** The first upload loop: the dirty rows in listing order, counting
        each one done and stopping at the first failing call. */
    method SyncDirtyRows(usersToSync: seq<User>) returns (usersUpdated: nat, failure: Option<string>)
      requires Valid()
      modifies local, remote
      ensures Valid()
      ensures var p := SyncPass(old(local.rows), old(remote.sent), usersToSync, remote.server);
              && local.rows == p.rows && remote.sent == p.sent
              && failure == p.failure && usersUpdated == p.processed
    {
      ghost var t0, s0 := local.rows, remote.sent;
      usersUpdated := 0;
      for i := 0 to |usersToSync|
        invariant local.Valid()
        invariant usersUpdated == i
        invariant var whole := SyncPass(t0, s0, usersToSync, remote.server);
                  var rest := SyncPass(local.rows, remote.sent, usersToSync[i..], remote.server);
                  && whole.rows == rest.rows && whole.sent == rest.sent
                  && whole.failure == rest.failure && whole.processed == i + rest.processed
      {
        var user := usersToSync[i];
        assert usersToSync[i..][0] == user && usersToSync[i..][1..] == usersToSync[i + 1..];
        failure := SyncRow(user);
        if failure.Some? {
          return;
        }
        usersUpdated := usersUpdated + 1;
      }
      failure := None;
    }

    /** The second upload loop: every listed tombstone, counted. */
    method PurgeTombstones(usersToDelete: seq<User>) returns (usersDeleted: nat)
      requires Valid()
      modifies local, remote
      ensures Valid()
      ensures (local.rows, remote.sent) == PurgePass(old(local.rows), old(remote.sent), usersToDelete)
      ensures usersDeleted == |usersToDelete|
    {
      ghost var t0, s0 := local.rows, remote.sent;
      usersDeleted := 0;
      for i := 0 to |usersToDelete|
        invariant local.Valid()
        invariant usersDeleted == i
        invariant PurgePass(local.rows, remote.sent, usersToDelete[i..]) == PurgePass(t0, s0, usersToDelete)
      {
        var user := usersToDelete[i];
        assert usersToDelete[i..][0] == user && usersToDelete[i..][1..] == usersToDelete[i + 1..];
        PurgeRow(user);
        usersDeleted := usersDeleted + 1;
      }
    }

    /** The upload phase. `dirty` and `tombstones` are the two query results,
        in the order the database listed them. */
    method UploadPendingChanges() returns (r: RepositoryResult, ghost dirty: seq<User>, ghost tombstones: seq<User>)
      requires Valid()
      modifies local, remote
      ensures Valid()
      ensures Lists(dirty, ToSync(old(local.rows)))
      ensures var p := SyncPass(old(local.rows), old(remote.sent), dirty, remote.server);
              if p.failure.Some? then tombstones == [] else Lists(tombstones, ToDelete(p.rows))
      ensures Outcome(r, local.rows, remote.sent)
              == UploadOutcome(old(local.rows), old(remote.sent), dirty, tombstones, remote.server)
      ensures |old(remote.sent)| <= |remote.sent| && remote.sent[..|old(remote.sent)|] == old(remote.sent)
      ensures forall k :: |old(remote.sent)| <= k < |remote.sent| ==> !remote.sent[k].GetAll?
    {
      ghost var t0, s0 := local.rows, remote.sent;
      var usersToSync := local.GetUsersToSync();
      dirty := usersToSync;
      var usersUpdated, failure := SyncDirtyRows(usersToSync);
      if failure.Some? {
        r := Error(UploadFailedPrefix + failure.value, failure);
        tombstones := [];
        UploadSendsOnlyWrites(t0, s0, dirty, [], remote.server);
        return;
      }
      var usersToDelete := local.GetUsersToDelete();
      tombstones := usersToDelete;
      var usersDeleted := PurgeTombstones(usersToDelete);
      r := Success(UploadSummary(usersUpdated, usersDeleted));
      UploadSendsOnlyWrites(t0, s0, dirty, tombstones, remote.server);
    }

    /** Applies the downloaded records: bulk update of the known ones, then
        bulk insert of the new ones, each skipped when it has nothing to do. */
    method ApplyDownload(usersToUpdate: seq<User>, usersToInsert: seq<User>)
      requires Valid()
      modifies local
      ensures Valid()
      ensures local.rows == UpsertAll(UpdateAll(old(local.rows), usersToUpdate), usersToInsert)
    {
      if usersToUpdate != [] {
        local.UpdateUsers(usersToUpdate);
      }
      if usersToInsert != [] {
        local.InsertUsers(usersToInsert);
      }
    }

    /** The download phase. */
    method SyncFromServer() returns (r: RepositoryResult)
      requires Valid()
      modifies local, remote
      ensures Valid()
      ensures Outcome(r, local.rows, remote.sent) == DownloadOutcome(old(local.rows), old(remote.sent), remote.server)
    {
      var response := remote.GetAllUsers();
      if response.Fail? {
        r := Error(DownloadFailedPrefix + response.message, Some(response.message));
        return;
      }
      var remoteUsers := response.value;
      var localIds := local.GetAllIds();
      var usersToUpdate, usersToInsert := SplitByLocalIds(remoteUsers, localIds);
      ApplyDownload(usersToUpdate, usersToInsert);
      r := Success(DownloadSummary(|usersToInsert|, |usersToUpdate|));
    }
  }
}

=== FILE: upload.dfy ===
/** The upload phase of a synchronisation, as functions of the table, the
    requests already sent and the order in which the queries listed the rows.
    The repository's `UploadPendingChanges` is proved to compute exactly these. */
module Upload {
  import opened Users
  import opened Local
  import opened Network

  /** Where an upload pass stands: the table, the requests sent so far, how
      many rows were processed, and the failure that stopped it, if any. */
  datatype Pass = Pass(rows: Table, sent: seq<Request>, processed: nat, failure: Option<string>)

  /** The request the upload sends for a dirty row: POST for a row that only
      exists locally, PUT under its own id for any other. */
  function RequestFor(u: User): Request {
    if IsLocalId(u.id) then Create(u) else Put(u.id, u)
  }

  /** The requests for a list of dirty rows, in order. */
  function RequestsFor(us: seq<User>): seq<Request>
    decreases |us|
  {
    if us == [] then [] else [RequestFor(us[0])] + RequestsFor(us[1..])
  }

  lemma RequestsForFirst(us: seq<User>, n: nat)
    requires n < |us|
    ensures RequestsFor(us[..n + 1]) == [RequestFor(us[0])] + RequestsFor(us[1..][..n])
  {
    assert us[..n + 1][1..] == us[1..][..n];
  }

  /** The answer of the server to the request for a dirty row. */
  function Answer(server: Server, sent: seq<Request>, u: User): Call<User> {
    if IsLocalId(u.id) then server.create(sent, u) else server.update(sent, u.id, u)
  }

  /** One dirty row of the first upload loop: the request it sends, and
      whether its call failed. */
  function SyncOne(t: Table, sent: seq<Request>, u: User, server: Server): (p: Pass)
    ensures p.sent == sent + [RequestFor(u)]
    ensures p.failure.Some? <==> Answer(server, sent, u).Fail?
    ensures p.failure.Some? ==> p.failure.value == Answer(server, sent, u).message && p.rows == t && p.processed == 0
    ensures p.failure.None? ==> p.processed == 1
    ensures WellKeyed(t) ==> WellKeyed(p.rows)
  {
    if IsLocalId(u.id) then
      match server.create(sent, u)
      case Fail(m) => Pass(t, sent + [Create(u)], 0, Some(m))
      case Ok(created) => Pass(Upsert(Remove(t, u.id), created.(pendingSync := false)), sent + [Create(u)], 1, None)
    else
      match server.update(sent, u.id, u)
      case Fail(m) => Pass(t, sent + [Put(u.id, u)], 0, Some(m))
      case Ok(_) => Pass(Update(t, u.(pendingSync := false)), sent + [Put(u.id, u)], 1, None)
  }

  /** What one dirty row does to the table when its call succeeds: a local row
      is dropped and the server's record takes its place, marked synced; any
      other row keeps what was sent, with only `pendingSync` cleared. No other
      key changes. */
  lemma SyncOneEffect(t: Table, sent: seq<Request>, u: User, server: Server)
    ensures var p := SyncOne(t, sent, u, server);
            p.failure.None? && IsLocalId(u.id) ==>
              var created := server.create(sent, u).value;
              && p.rows.Keys == (t.Keys - {u.id}) + {created.id}
              && p.rows[created.id] == created.(pendingSync := false)
              && forall id :: id != u.id && id != created.id ==> Find(p.rows, id) == Find(t, id)
    ensures var p := SyncOne(t, sent, u, server);
            p.failure.None? && !IsLocalId(u.id) ==>
              && p.rows.Keys == t.Keys
              && (u.id in t ==> p.rows[u.id] == u.(pendingSync := false))
              && forall id :: id != u.id ==> Find(p.rows, id) == Find(t, id)
  {
  }

  /** The first upload loop over the listed dirty rows: stops at the first
      failing call, keeping what the earlier rows already did. */
  function SyncPass(t: Table, sent: seq<Request>, us: seq<User>, server: Server): (p: Pass)
    ensures p.processed <= |us|
    ensures p.failure.None? ==> p.processed == |us|
    ensures p.failure.Some? ==> p.processed < |us|
    ensures WellKeyed(t) ==> WellKeyed(p.rows)
    decreases |us|
  {
    if us == [] then Pass(t, sent, 0, None)
    else
      var first := SyncOne(t, sent, us[0], server);
      if first.failure.Some? then first
      else
        var rest := SyncPass(first.rows, first.sent, us[1..], server);
        rest.(processed := rest.processed + 1)
  }

  /** The second upload loop over the listed tombstones: a remote DELETE for
      each id that is not local, whose answer is ignored, and a physical local
      delete in every case. */
  function PurgePass(t: Table, sent: seq<Request>, ts: seq<User>): (r: (Table, seq<Request>))
    ensures WellKeyed(t) ==> WellKeyed(r.0)
    decreases |ts|
  {
    if ts == [] then (t, sent)
    else
      var u := ts[0];
      PurgePass(Remove(t, u.id), if IsLocalId(u.id) then sent else sent + [Delete(u.id)], ts[1..])
  }

  /** The DELETE requests of the second loop, in listing order. */
  function DeleteRequests(ts: seq<User>): seq<Request>
    decreases |ts|
  {
    if ts == [] then []
    else (if IsLocalId(ts[0].id) then [] else [Delete(ts[0].id)]) + DeleteRequests(ts[1..])
  }

  // ---------------------------------------------------------------------------
  // Lemmas

  /** The rows whose request a pass sent: those processed and the one that failed, if any. */
  function Attempted(p: Pass): nat {
    p.processed + (if p.failure.Some? then 1 else 0)
  }

  lemma AppendAssoc<T>(a: seq<T>, b: seq<T>, c: seq<T>)
    ensures a + (b + c) == (a + b) + c
  {
  }

  /** The first loop sends one request per processed row, in listing order,
      plus the request that failed, if one did. */
  lemma {:induction false} SyncPassRequests(t: Table, sent: seq<Request>, us: seq<User>, server: Server)
    ensures var p := SyncPass(t, sent, us, server);
            p.sent == sent + RequestsFor(us[..Attempted(p)])
    decreases |us|
  {
    if us != [] {
      var first := SyncOne(t, sent, us[0], server);
      if first.failure.Some? {
        RequestsForFirst(us, 0);
        assert us[1..][..0] == [];
      } else {
        var rest := SyncPass(first.rows, first.sent, us[1..], server);
        SyncPassRequests(first.rows, first.sent, us[1..], server);
        RequestsForFirst(us, Attempted(rest));
        AppendAssoc(sent, [RequestFor(us[0])], RequestsFor(us[1..][..Attempted(rest)]));
      }
    }
  }

  /** No rollback: a pass stopped by a failure leaves the table exactly as a
      pass over the rows before the failing one would. */
  lemma {:induction false} SyncPassNoRollback(t: Table, sent: seq<Request>, us: seq<User>, server: Server)
    ensures var p := SyncPass(t, sent, us, server);
            var q := SyncPass(t, sent, us[..p.processed], server);
            q.failure.None? && q.rows == p.rows && q.processed == p.processed
    decreases |us|
  {
    if us != [] {
      var first := SyncOne(t, sent, us[0], server);
      if first.failure.None? {
        var p := SyncPass(t, sent, us, server);
        SyncPassNoRollback(first.rows, first.sent, us[1..], server);
        assert us[..p.processed][1..] == us[1..][..p.processed - 1];
      }
    }
  }

  /** A successful pass over a list naming every dirty row leaves no dirty row. */
  lemma {:induction false} SyncPassCleans(t: Table, sent: seq<Request>, us: seq<User>, server: Server)
    requires forall id :: id in t && IsDirty(t[id]) ==> id in IdsOf(us)
    requires SyncPass(t, sent, us, server).failure.None?
    ensures var rows := SyncPass(t, sent, us, server).rows;
            forall id :: id in rows ==> !IsDirty(rows[id])
    decreases |us|
  {
    if us != [] {
      var first := SyncOne(t, sent, us[0], server);
      SyncOneEffect(t, sent, us[0], server);
      IdsOfCons(us);
      forall id | id in first.rows && IsDirty(first.rows[id])
        ensures id in IdsOf(us[1..])
      {
        assert Find(first.rows, id) == Find(t, id);
      }
      SyncPassCleans(first.rows, first.sent, us[1..], server);
    }
  }

  /** A local id that is absent stays absent while the server assigns non-local ids. */
  lemma {:induction false} LocalIdStaysGone(t: Table, sent: seq<Request>, us: seq<User>, server: Server, x: string)
    requires AssignsServerIds(server) && IsLocalId(x) && x !in t
    ensures x !in SyncPass(t, sent, us, server).rows
    decreases |us|
  {
    if us != [] {
      var first := SyncOne(t, sent, us[0], server);
      SyncOneEffect(t, sent, us[0], server);
      if first.failure.None? {
        LocalIdStaysGone(first.rows, first.sent, us[1..], server, x);
      }
    }
  }

  /** Every processed row with a local id has been re-keyed: no row keeps its
      temporary id, as long as the server assigns non-local ids. */
  lemma {:induction false} SyncPassRetiresLocalIds(t: Table, sent: seq<Request>, us: seq<User>, server: Server)
    requires AssignsServerIds(server)
    ensures var p := SyncPass(t, sent, us, server);
            forall i :: 0 <= i < p.processed && IsLocalId(us[i].id) ==> us[i].id !in p.rows
    decreases |us|
  {
    if us != [] {
      var first := SyncOne(t, sent, us[0], server);
      if first.failure.None? {
        var p := SyncPass(t, sent, us, server);
        SyncPassRetiresLocalIds(first.rows, first.sent, us[1..], server);
        SyncOneEffect(t, sent, us[0], server);
        if IsLocalId(us[0].id) {
          LocalIdStaysGone(first.rows, first.sent, us[1..], server, us[0].id);
        }
        forall i | 1 <= i < p.processed && IsLocalId(us[i].id)
          ensures us[i].id !in p.rows
        {
          assert us[1..][i - 1] == us[i];
        }
      }
    }
  }

  /** Every listed tombstone is physically deleted, whatever the server
      answered, and no other row. */
  lemma {:induction false} PurgePassRows(t: Table, sent: seq<Request>, ts: seq<User>)
    ensures PurgePass(t, sent, ts).0 == t - IdsOf(ts)
    decreases |ts|
  {
    if ts != [] {
      var u := ts[0];
      PurgePassRows(Remove(t, u.id), if IsLocalId(u.id) then sent else sent + [Delete(u.id)], ts[1..]);
      IdsOfCons(ts);
    }
  }

  /** The DELETE requests are one per tombstone whose id is not local, and
      no other. */
  lemma {:induction false} DeleteRequestsExact(ts: seq<User>)
    ensures forall r :: r in DeleteRequests(ts) ==> r.Delete? && !IsLocalId(r.id) && r.id in IdsOf(ts)
    ensures forall u :: u in ts && !IsLocalId(u.id) ==> Delete(u.id) in DeleteRequests(ts)
    decreases |ts|
  {
    if ts != [] {
      DeleteRequestsExact(ts[1..]);
      IdsOfCons(ts);
      assert ts == [ts[0]] + ts[1..];
    }
  }

  /** Over a listing, where no id appears twice, each tombstone whose id is
      not local gets exactly one DELETE, and a local one none. */
  lemma {:induction false} DeleteRequestsOnce(ts: seq<User>, i: nat)
    requires forall j, k :: 0 <= j < k < |ts| ==> ts[j].id != ts[k].id
    requires i < |ts|
    ensures multiset(DeleteRequests(ts))[Delete(ts[i].id)] == (if IsLocalId(ts[i].id) then 0 else 1)
    decreases |ts|
  {
    var head: seq<Request> := if IsLocalId(ts[0].id) then [] else [Delete(ts[0].id)];
    var rest := DeleteRequests(ts[1..]);
    assert multiset(DeleteRequests(ts)) == multiset(head) + multiset(rest);
    if i == 0 {
      assert ts[0].id !in IdsOf(ts[1..]) by {
        forall k | 0 <= k < |ts[1..]|
          ensures ts[1..][k].id != ts[0].id
        {
          assert ts[1..][k] == ts[k + 1];
        }
      }
      DeleteRequestsExact(ts[1..]);
      assert multiset(rest)[Delete(ts[0].id)] == 0;
    } else {
      DeleteRequestsOnce(ts[1..], i - 1);
      assert ts[1..][i - 1] == ts[i];
    }
  }

  /** The second loop sends exactly the DELETE requests for the non-local
      tombstones, after what was sent before. */
  lemma {:induction false} PurgePassRequests(t: Table, sent: seq<Request>, ts: seq<User>)
    ensures PurgePass(t, sent, ts).1 == sent + DeleteRequests(ts)
    decreases |ts|
  {
    if ts != [] {
      var u := ts[0];
      PurgePassRequests(Remove(t, u.id), if IsLocalId(u.id) then sent else sent + [Delete(u.id)], ts[1..]);
    }
  }

  /** A successful upload that read the dirty rows and then the tombstones
      leaves a table in which every row is clean. */
  lemma UploadLeavesTableClean(t: Table, sent: seq<Request>, dirty: seq<User>, tombstones: seq<User>, server: Server)
    requires WellKeyed(t) && Lists(dirty, ToSync(t))
    requires SyncPass(t, sent, dirty, server).failure.None?
    requires Lists(tombstones, ToDelete(SyncPass(t, sent, dirty, server).rows))
    ensures var p := SyncPass(t, sent, dirty, server);
            var rows := PurgePass(p.rows, p.sent, tombstones).0;
            forall id :: id in rows ==> IsClean(rows[id])
  {
    var p := SyncPass(t, sent, dirty, server);
    ListingIds(dirty, ToSync(t));
    SyncPassCleans(t, sent, dirty, server);
    ListingIds(tombstones, ToDelete(p.rows));
    PurgePassRows(p.rows, p.sent, tombstones);
  }

  /** With nothing dirty and no tombstone, the listings are empty, nothing is
      sent and nothing changes. */
  lemma CleanTableUploadsNothing(t: Table, sent: seq<Request>, dirty: seq<User>, tombstones: seq<User>, server: Server)
    requires WellKeyed(t) && forall id :: id in t ==> IsClean(t[id])
    requires Lists(dirty, ToSync(t)) && Lists(tombstones, ToDelete(t))
    ensures dirty == [] && tombstones == []
    ensures SyncPass(t, sent, dirty, server) == Pass(t, sent, 0, None)
    ensures PurgePass(t, sent, tombstones) == (t, sent)
  {
    assert ToSync(t).Keys == {};
    assert ToDelete(t).Keys == {};
    ListingSize(dirty, ToSync(t));
    ListingSize(tombstones, ToDelete(t));
  }

  /** No request among `rs` asks for the server's listing. */
  predicate OnlyWrites(rs: seq<Request>) {
    forall k :: 0 <= k < |rs| ==> !rs[k].GetAll?
  }

  /** The requests for dirty rows are POSTs and PUTs only. */
  lemma {:induction false} RequestsForOnlyWrites(us: seq<User>)
    ensures OnlyWrites(RequestsFor(us))
    decreases |us|
  {
    if us != [] {
      RequestsForOnlyWrites(us[1..]);
    }
  }

  lemma {:induction false} DeleteRequestsOnlyWrites(ts: seq<User>)
    ensures OnlyWrites(DeleteRequests(ts))
    decreases |ts|
  {
    if ts != [] {
      DeleteRequestsOnlyWrites(ts[1..]);
    }
  }

  /** Appending two lists of writes to a log leaves the old log as a prefix
      and adds no listing request. */
  lemma AppendWrites(sent: seq<Request>, ups: seq<Request>, dels: seq<Request>)
    requires OnlyWrites(ups) && OnlyWrites(dels)
    ensures var mid := sent + ups;
            var q := mid + dels;
            && mid[..|sent|] == sent && q[..|mid|] == mid
            && forall k :: |sent| <= k < |q| ==> !q[k].GetAll?
  {
    var mid := sent + ups;
    var q := mid + dels;
    forall k | |sent| <= k < |q|
      ensures !q[k].GetAll?
    {
      if k < |mid| {
        assert q[k] == ups[k - |sent|];
      } else {
        assert q[k] == dels[k - |mid|];
      }
    }
  }

  /** The upload only writes: after what was sent before come POST, PUT and
      DELETE requests, and never a request for the server's listing. */
  lemma UploadSendsOnlyWrites(t: Table, sent: seq<Request>, dirty: seq<User>, tombstones: seq<User>, server: Server)
    ensures var p := SyncPass(t, sent, dirty, server);
            var q := PurgePass(p.rows, p.sent, tombstones).1;
            && |sent| <= |p.sent| <= |q| && p.sent[..|sent|] == sent && q[..|p.sent|] == p.sent
            && forall k :: |sent| <= k < |q| ==> !q[k].GetAll?
  {
    var p := SyncPass(t, sent, dirty, server);
    SyncPassRequests(t, sent, dirty, server);
    PurgePassRequests(p.rows, p.sent, tombstones);
    var ups := RequestsFor(dirty[..Attempted(p)]);
    RequestsForOnlyWrites(dirty[..Attempted(p)]);
    DeleteRequestsOnlyWrites(tombstones);
    AppendWrites(sent, ups, DeleteRequests(tombstones));
  }
}

=== FILE: users.dfy ===
/** The user record shared by the local table and the remote service. */
module Users {

  datatype Option<T> = None | Some(value: T)

  /** One row of the local `users` table. Besides the business fields it carries
      two local-only flags: `pendingSync` (the row has changes the server has not
      seen) and `pendingDelete` (the row was deleted locally: a tombstone). */
  datatype User = User(
    id: string,
    firstName: string,
    lastName: string,
    email: string,
    age: int,
    userName: string,
    positionTitle: string,
    imagen: string,
    pendingSync: bool,
    pendingDelete: bool)

  /** Prefix of the temporary identifiers minted on the device. */
  const LocalPrefix: string := "local_"

  /** `id.startsWith("local_")`: the row was never created on the server. */
  predicate IsLocalId(id: string) {
    |LocalPrefix| <= |id| && id[..|LocalPrefix|] == LocalPrefix
  }

  /** A row the upload phase must create or update remotely. */
  predicate IsDirty(u: User) {
    u.pendingSync && !u.pendingDelete
  }

  /** A row with no pending work at all. */
  predicate IsClean(u: User) {
    !u.pendingSync && !u.pendingDelete
  }
}

/** Kotlin's string templates for the numbers that appear in messages and ids. */
module Text {

  function DigitChar(d: nat): (c: char)
    requires d < 10
    ensures '0' <= c <= '9'
  {
    "0123456789"[d]
  }

  /** Decimal rendering of a natural number, without leading zeros. */
  function NatToString(n: nat): (s: string)
    ensures |s| > 0
    ensures forall i :: 0 <= i < |s| ==> '0' <= s[i] <= '9'
    ensures |s| > 1 ==> s[0] != '0'
    decreases n
  {
    if n < 10 then [DigitChar(n)] else NatToString(n / 10) + [DigitChar(n % 10)]
  }

  /** The value of a string of decimal digits. */
  function DigitsValue(s: string): nat
    requires forall i :: 0 <= i < |s| ==> '0' <= s[i] <= '9'
    decreases |s|
  {
    if s == [] then 0 else DigitsValue(s[..|s| - 1]) * 10 + (s[|s| - 1] as int - '0' as int)
  }

  /** Reading back the decimal rendering gives the number again. */
  lemma {:induction false} NatToStringValue(n: nat)
    ensures DigitsValue(NatToString(n)) == n
    decreases n
  {
    if n >= 10 {
      NatToStringValue(n / 10);
      var s := NatToString(n);
      assert s[..|s| - 1] == NatToString(n / 10);
    }
  }

  /** Decimal rendering of an integer, with a leading '-' when negative. */
  function IntToString(i: int): (s: string)
    ensures |s| > 0
    ensures (s[0] == '-') <==> i < 0
  {
    if i < 0 then "-" + NatToString(-i) else NatToString(i)
  }

  /** Different natural numbers are rendered differently. */
  lemma NatToStringInjective(m: nat, n: nat)
    requires NatToString(m) == NatToString(n)
    ensures m == n
  {
    NatToStringValue(m);
    NatToStringValue(n);
  }

  /** Different integers are rendered differently. */
  lemma IntToStringInjective(i: int, j: int)
    requires IntToString(i) == IntToString(j)
    ensures i == j
  {
    if i < 0 {
      assert j < 0 by {
        assert IntToString(j)[0] == '-';
      }
      assert NatToString(-i) == NatToString(-j) by {
        assert IntToString(i)[1..] == NatToString(-i);
        assert IntToString(j)[1..] == NatToString(-j);
      }
      NatToStringInjective(-i, -j);
    } else {
      assert j >= 0 by {
        assert IntToString(j)[0] != '-';
      }
      NatToStringInjective(i, j);
    }
  }
}

=== FILE: view_model.dfy ===
/** The view model: assigns temporary ids to new records, builds the random test
    user, sequences the two synchronisation phases and turns repository results
    into messages for the screen. */
module ViewModel {
  import opened Users
  import opened Text
  import opened Local
  import opened Network
  import opened Upload
  import opened Download
  import opened Repository

  const SyncStartMessage: string := "Iniciando sincronización..."
  const UploadErrorPrefix: string := "Error subiendo: "
  const DownloadErrorPrefix: string := "Error descargando: "

  /** Kotlin's `Char.isWhitespace`: the Java whitespace controls and every
      Unicode space, line or paragraph separator. */
  predicate IsWhitespace(c: char) {
    var n := c as int;
    || (0x09 <= n <= 0x0D) || (0x1C <= n <= 0x20)
    || n == 0xA0 || n == 0x1680 || (0x2000 <= n <= 0x200A)
    || n == 0x2028 || n == 0x2029 || n == 0x202F || n == 0x205F || n == 0x3000
  }

  /** `String.isBlank`: empty or whitespace only. */
  predicate IsBlank(s: string) {
    forall i :: 0 <= i < |s| ==> IsWhitespace(s[i])
  }

  /** The temporary id minted from the clock reading `clock` (`System.nanoTime()`). */
  function TemporaryId(clock: int): (id: string)
    ensures IsLocalId(id) && !IsBlank(id)
  {
    var id := LocalPrefix + IntToString(clock);
    assert id[..|LocalPrefix|] == LocalPrefix;
    assert !IsWhitespace(id[0]);
    id
  }

  /** Different clock readings give different temporary ids. */
  lemma TemporaryIdsDistinct(c1: int, c2: int)
    requires c1 != c2
    ensures TemporaryId(c1) != TemporaryId(c2)
  {
    if TemporaryId(c1) == TemporaryId(c2) {
      assert TemporaryId(c1)[|LocalPrefix|..] == IntToString(c1);
      assert TemporaryId(c2)[|LocalPrefix|..] == IntToString(c2);
      IntToStringInjective(c1, c2);
    }
  }

  /** The record `insertUser` hands to the repository: a blank id is replaced
      by a temporary one and nothing else changes; any other record is passed
      on as it is. */
  function UserToSave(user: User, clock: int): (u: User)
    ensures !IsBlank(u.id)
    ensures IsBlank(user.id) ==> IsLocalId(u.id) && u.(id := user.id) == user
    ensures !IsBlank(user.id) ==> u == user
  {
    if IsBlank(user.id) then user.(id := TemporaryId(clock)) else user
  }

  /** Preparing a record twice is preparing it once: the second clock reading is
      never used. */
  lemma UserToSaveIdempotent(user: User, c1: int, c2: int)
    ensures UserToSave(UserToSave(user, c1), c2) == UserToSave(user, c1)
  {
  }

  /** The record `addTestUser` builds from one clock reading and three random
      draws, each in the range `Random.nextInt` was asked for. */
  function TestUser(clock: int, lastNameDraw: int, ageDraw: int, portraitDraw: int): (u: User)
    requires 1 <= lastNameDraw < 100 && 18 <= ageDraw < 90 && 1 <= portraitDraw < 9
    ensures u.id == TemporaryId(clock) && IsLocalId(u.id)
    ensures u.email == "test" + u.id[|LocalPrefix|..] + "@example.com"
    ensures 18 <= u.age < 90
    ensures IsDirty(u)
  {
    var stamp := IntToString(clock);
    var u := User(
      id := LocalPrefix + stamp,
      firstName := "Test",
      lastName := "User " + NatToString(lastNameDraw),
      email := "test" + stamp + "@example.com",
      age := ageDraw,
      userName := "user_test",
      positionTitle := "Tester",
      imagen := "https://randomuser.me/api/portraits/lego/" + NatToString(portraitDraw) + ".jpg",
      pendingSync := true,
      pendingDelete := false);
    assert u.id[|LocalPrefix|..] == stamp;
    u
  }

  /** The message `handleResult` emits: only an error is reported. */
  function Notice(r: RepositoryResult): (ms: seq<string>)
    ensures |ms| <= 1
    ensures ms != [] <==> r.Error?
    ensures r.Error? ==> ms == [r.message]
  {
    if r.Error? then [r.message] else []
  }

  /** The final message of a synchronisation whose upload succeeded. */
  function DownloadNotice(r: RepositoryResult): (m: string)
    ensures r.Success? ==> m == r.message
    ensures r.Error? ==> m == DownloadErrorPrefix + r.message
  {
    match r
    case Success(message) => message
    case Error(message, _) => DownloadErrorPrefix + message
  }

  /** A test user, once saved, is visible and waiting for upload under a
      temporary id, with the flags it was built with. */
  lemma TestUserIsPendingUpload(t: Table, clock: int, lastNameDraw: int, ageDraw: int, portraitDraw: int)
    requires 1 <= lastNameDraw < 100 && 18 <= ageDraw < 90 && 1 <= portraitDraw < 9
    ensures var u := TestUser(clock, lastNameDraw, ageDraw, portraitDraw);
            var r := Upsert(t, UserToSave(u, clock).(pendingSync := true, pendingDelete := false));
            && r == Upsert(t, u)
            && u.id in ActiveView(r) && u.id in ToSync(r) && IsLocalId(u.id)
  {
  }

  /** Emitting two messages one after the other emits the pair. */
  lemma AppendTwo(ms: seq<string>, a: string, b: string)
    ensures ms + [a] + [b] == ms + [a, b]
  {
  }

  /** A log that extends `s0` and then gains a GET still extends `s0`, and ends with the GET. */
  lemma ExtendLog(s0: seq<Request>, s1: seq<Request>, s2: seq<Request>)
    requires |s0| <= |s1| && s1[..|s0|] == s0 && s2 == s1 + [GetAll]
    ensures |s0| <= |s2| && s2[..|s0|] == s0 && s2[|s2| - 1] == GetAll
  {
    assert s2[..|s0|] == s1[..|s0|];
  }

  class UserViewModel {
    const repository: DefaultUserRepository
    /** The messages emitted so far, oldest first. */
    var messages: seq<string>

    ghost predicate Valid()
      reads this, repository, repository.local
    {
      repository.Valid()
    }

    constructor (repository: DefaultUserRepository)
      requires repository.Valid()
      ensures Valid() && this.repository == repository && messages == []
    {
      this.repository := repository;
      messages := [];
    }

    method HandleResult(r: RepositoryResult)
      modifies this
      ensures messages == old(messages) + Notice(r)
    {
      if r.Error? {
        messages := messages + [r.message];
      }
    }

    /** `insertUser`: `clock` is the reading of `System.nanoTime()`, used only
        when the id is blank. Local writes succeed, so nothing is emitted. */
    method InsertUser(user: User, clock: int)
      requires Valid()
      modifies this, repository.local
      ensures Valid()
      ensures repository.local.rows
              == Upsert(old(repository.local.rows), UserToSave(user, clock).(pendingSync := true, pendingDelete := false))
      ensures messages == old(messages)
    {
      var userToSave := UserToSave(user, clock);
      var result := repository.InsertUser(userToSave);
      HandleResult(result);
    }

    method UpdateUser(user: User)
      requires Valid()
      modifies this, repository.local
      ensures Valid()
      ensures repository.local.rows == Update(old(repository.local.rows), user.(pendingSync := true))
      ensures messages == old(messages)
    {
      var result := repository.UpdateUser(user);
      HandleResult(result);
    }

    method DeleteUser(user: User)
      requires Valid()
      modifies this, repository.local
      ensures Valid()
      ensures repository.local.rows
              == Update(old(repository.local.rows), user.(pendingDelete := true, pendingSync := true))
      ensures messages == old(messages)
    {
      var result := repository.DeleteUser(user);
      HandleResult(result);
    }

    /** `addTestUser`: the clock reading and the three draws are parameters. */
    method AddTestUser(clock: int, lastNameDraw: int, ageDraw: int, portraitDraw: int)
      requires Valid()
      requires 1 <= lastNameDraw < 100 && 18 <= ageDraw < 90 && 1 <= portraitDraw < 9
      modifies this, repository.local
      ensures Valid()
      ensures repository.local.rows
              == Upsert(old(repository.local.rows), TestUser(clock, lastNameDraw, ageDraw, portraitDraw))
      ensures messages == old(messages)
    {
      var testUser := TestUser(clock, lastNameDraw, ageDraw, portraitDraw);
      TestUserIsPendingUpload(repository.local.rows, clock, lastNameDraw, ageDraw, portraitDraw);
      InsertUser(testUser, clock);
    }

    /** The first step of `sync`: the upload, and its error message if it
        fails. `dirty` and `tombstones` are the listings the upload read. */
    method UploadStep() returns (upload: RepositoryResult, ghost dirty: seq<User>, ghost tombstones: seq<User>)
      requires Valid()
      modifies this, repository.local, repository.remote
      ensures Valid()
      ensures Lists(dirty, ToSync(old(repository.local.rows)))
      ensures var p := SyncPass(old(repository.local.rows), old(repository.remote.sent), dirty, repository.remote.server);
              if p.failure.Some? then tombstones == [] else Lists(tombstones, ToDelete(p.rows))
      ensures Outcome(upload, repository.local.rows, repository.remote.sent)
              == UploadOutcome(old(repository.local.rows), old(repository.remote.sent), dirty, tombstones, repository.remote.server)
      ensures messages == old(messages) + (if upload.Error? then [UploadErrorPrefix + upload.message] else [])
      ensures |old(repository.remote.sent)| <= |repository.remote.sent|
      ensures repository.remote.sent[..|old(repository.remote.sent)|] == old(repository.remote.sent)
      ensures forall k :: |old(repository.remote.sent)| <= k < |repository.remote.sent| ==> !repository.remote.sent[k].GetAll?
    {
      upload, dirty, tombstones := repository.UploadPendingChanges();
      if upload.Error? {
        messages := messages + [UploadErrorPrefix + upload.message];
      }
    }

    /** The second step of `sync`: the download, and the message reporting it. */
    method DownloadStep() returns (download: RepositoryResult)
      requires Valid()
      modifies this, repository.local, repository.remote
      ensures Valid()
      ensures Outcome(download, repository.local.rows, repository.remote.sent)
              == DownloadOutcome(old(repository.local.rows), old(repository.remote.sent), repository.remote.server)
      ensures messages == old(messages) + [DownloadNotice(download)]
    {
      download := repository.SyncFromServer();
      match download {
        case Success(message) =>
          messages := messages + [message];
        case Error(message, _) =>
          messages := messages + [DownloadErrorPrefix + message];
      }
    }

    /** `sync`: the upload runs first; the download runs only when the upload
        succeeded, from the table and log the upload left. `upload` and
        `download` are the two phases' results, `dirty` and `tombstones` the
        listings the upload read. */
    method Sync() returns (ghost upload: RepositoryResult, ghost download: Option<RepositoryResult>,
                           ghost dirty: seq<User>, ghost tombstones: seq<User>)
      requires Valid()
      modifies this, repository.local, repository.remote
      ensures Valid()
      ensures Lists(dirty, ToSync(old(repository.local.rows)))
      ensures var p := SyncPass(old(repository.local.rows), old(repository.remote.sent), dirty, repository.remote.server);
              if p.failure.Some? then tombstones == [] else Lists(tombstones, ToDelete(p.rows))
      ensures upload.Error? <==> download.None?
      ensures var up := UploadOutcome(old(repository.local.rows), old(repository.remote.sent), dirty, tombstones, repository.remote.server);
              up.result.Error? ==>
                && upload == up.result && download == None
                && repository.local.rows == up.rows && repository.remote.sent == up.sent
                && messages == old(messages) + [SyncStartMessage, UploadErrorPrefix + up.result.message]
      ensures var up := UploadOutcome(old(repository.local.rows), old(repository.remote.sent), dirty, tombstones, repository.remote.server);
              var down := DownloadOutcome(up.rows, up.sent, repository.remote.server);
              up.result.Success? ==>
                && upload == up.result && download == Some(down.result)
                && repository.local.rows == down.rows && repository.remote.sent == down.sent
                && messages == old(messages) + [SyncStartMessage, DownloadNotice(down.result)]
      ensures |old(repository.remote.sent)| <= |repository.remote.sent|
      ensures repository.remote.sent[..|old(repository.remote.sent)|] == old(repository.remote.sent)
      // the listing is requested exactly when the download runs, and then last
      ensures download.None? ==>
                forall k :: |old(repository.remote.sent)| <= k < |repository.remote.sent| ==> !repository.remote.sent[k].GetAll?
      ensures download.Some? ==>
                |repository.remote.sent| > 0 && repository.remote.sent[|repository.remote.sent| - 1] == GetAll
    {
      messages := messages + [SyncStartMessage];
      var uploadResult;
      uploadResult, dirty, tombstones := UploadStep();
      upload := uploadResult;
      if uploadResult.Error? {
        AppendTwo(old(messages), SyncStartMessage, UploadErrorPrefix + uploadResult.message);
        download := None;
        return;
      }
      ghost var s1 := repository.remote.sent;
      var downloadResult := DownloadStep();
      download := Some(downloadResult);
      AppendTwo(old(messages), SyncStartMessage, DownloadNotice(downloadResult));
      ExtendLog(old(repository.remote.sent), s1, repository.remote.sent);
    }
  }
}
